=== FILE: README.md ===
# Foodio frontend — a Dafny model of its client-side logic

Foodio is a restaurant storefront built with Next.js. This project models the logic its pages
and components run in the browser:

- the session helpers of `app/utils/auth.ts`: the stored token and user, the role test, logout,
  the bearer header, the role redirect and the admin gate;
- the validation schema shared by the two admin modals, and how a failed validation becomes
  the per-field error map the form shows;
- the edit-item modal (`components/EditItemModel.tsx`) and the add-item modal
  (`components/AddNewItemModel.tsx`) as state machines: pre-fill, field edits, image choice,
  and submission with the multipart request it builds and the banner it shows on failure;
- the menu page served at `/FoodMenu` (`app/FoodMenu/page.tsx`), which loads the menu from
  the backend: the fetch URL per category tab, the shaping of backend records, the category
  filter, and placing an order;
- the landing page (`app/page.tsx`): the five featured items and where its buttons lead;
- the navbar switch (`components/ConditionalNavigation.tsx`) and the admin sidebar
  (`components/AdminSIdebar.tsx`).

Everything is pure functions over immutable values:

- `localStorage` is a `map<string, string>`. A server-side render, where `window` is
  undefined, is a separate `NoWindow` environment.
- Navigation, alerts and HTTP requests are values the functions return.
- The server's reply is an input: `Accepted`, `ApiError(status, message)` or `Unexpected`.
  A message of `""` stands for a missing or falsy `response.data.message`.
- A string field that the backend leaves out, or that holds a falsy value, is `""`.

Modules, one per source file plus shared pieces:

- `Wrappers`: `Option`.
- `Text`: ASCII lower-casing, and removing the first occurrence of a character.
- `Http`: the API host, request and reply shapes, the bearer header.
- `Auth`.
- `ItemSchema`: the schema, the issue-to-error fold, and multipart payloads.
- `EditItemModal`, `AddItemModal`.
- `MenuData`: the backend record and the image rule.
- `FoodMenu`, `HomePage`, `ConditionalNavigation`, `AdminSidebar`.

The schema is modelled twice:

- `ItemSchema.Rule` states each field's rule directly.
- `ItemSchema.Checks` / `Validate` reproduce the validation library's run: object keys in
  schema order; within a field every failing check adds an issue, because a failed string
  minimum does not stop the refinement after it.
- The lemmas connect the two definitions.

The error map is a left fold over the issues in which a later issue overwrites an earlier one
for the same field. So an empty price produces two issues ("Price is required", then "Price
must be a positive number") and the form shows the second one. `ItemSchema.PriceErrorMessage`
states this: "Price is required" never reaches the screen.

## Model

| member | source | states |
|---|---|---|
| Text.Lower | app/utils/auth.ts:45 | lower-casing keeps the length and maps every character through the ASCII case rule |
| Text.LowerEqualsIff | app/utils/auth.ts:45 | a string lower-cases to an all-lower-case target exactly when it is a case variant of it |
| Text.RemoveFirst | components/EditItemModel.tsx:65 | `replace('$', '')` leaves a string without '$' unchanged and otherwise cuts out exactly the first '$' |
| Text.RemoveFirstMultiset | components/EditItemModel.tsx:65 | removing the first '$' takes exactly one '$' out of the multiset and shortens the string by one |
| Text.FirstIndex | components/EditItemModel.tsx:65 | the index found holds the character and no earlier position does |
| Http.BearerRoundTrip | app/utils/auth.ts:69-76 | the token can be read back from the `Bearer <token>` header |
| Auth.GetUserRole | app/utils/auth.ts:35-38 | a role is reported exactly when a user decodes with a non-empty role, and it is that user's role |
| Auth.AuthenticatedIff | app/utils/auth.ts:51-53 | authenticated exactly in a browser whose storage holds a non-empty token; no token without a window |
| Auth.IsAdminIff | app/utils/auth.ts:43-46 | admin exactly when the decoded role is "admin" in any mix of letter case |
| Auth.NoWindowNoSession | app/utils/auth.ts:7-30 | without a window there is no token, no user, no session and no admin |
| Auth.Logout | app/utils/auth.ts:58-64 | in a browser, token and user are removed, every other key keeps its value, and the page goes to the given path; without a window nothing happens |
| Auth.LogoutEndsSession | app/utils/auth.ts:58-64 | after logout there is no session, no role and no admin |
| Auth.AuthHeader | app/utils/auth.ts:69-76 | the header carries the stored token, or the text "null" when there is none |
| Auth.RedirectByRole | app/utils/auth.ts:81-90 | the admin menu page exactly for admins, the login page for everyone else |
| Auth.RequireAdmin | app/utils/auth.ts:97-114 | access exactly for an authenticated admin; no session redirects to the given path, a non-admin session to the customer dashboard, no window redirects nowhere |
| Auth.RequireAdminDefault | app/utils/auth.ts:97-103 | with the default target, access exactly for an authenticated admin, and a visitor without a session goes to the login page |
| Auth.RequireAdminThreeWay | app/utils/auth.ts:97-114 | in a browser, exactly one of: allowed, sent to the given path, sent to the customer dashboard |
| Auth.GateAfterLogout | app/utils/auth.ts:58-64 | right after logout the admin gate refuses and redirects to its own path |
| ItemSchema.KeyInjective | components/EditItemModel.tsx:11-27 | different schema fields have different keys in the error map |
| ItemSchema.SetField | components/EditItemModel.tsx:76-86 | setting a field changes that field and no other |
| ItemSchema.Validate | components/EditItemModel.tsx:11-27 | validation yields no issue exactly when every field satisfies its rule |
| ItemSchema.FieldChecksAgree | components/AddNewItemModel.tsx:13-28 | for every field, its checks all pass exactly when the field's rule holds |
| ItemSchema.FailingShort | components/EditItemModel.tsx:12-25 | a field with at most two checks reports the failing ones in schema order |
| ItemSchema.NameRule | components/EditItemModel.tsx:12 | the name passes exactly when it has 1 to 100 characters |
| ItemSchema.DescriptionAndCategoryRules | components/EditItemModel.tsx:17-18 | the description passes exactly when it has 1 to 500 characters; the category exactly when it is non-empty |
| ItemSchema.PriceRule | components/EditItemModel.tsx:13-16 | the price passes exactly when it is a positive number; an empty price always fails |
| ItemSchema.ImageRule | components/EditItemModel.tsx:19-25 | no image always passes; a chosen image passes exactly when it is at most 2 MiB and PNG or JPEG |
| ItemSchema.CollectErrorsSpec | components/EditItemModel.tsx:174-180 | the error map has a key exactly when some issue names it, and holds the message of the last such issue |
| ItemSchema.CollectErrorsAppend | components/EditItemModel.tsx:174-180 | folding two issue lists one after the other gives the first map overwritten by the second |
| ItemSchema.CollectErrorsAt | components/EditItemModel.tsx:174-180 | the issues of one field fold to nothing, or to that field's last message |
| ItemSchema.ErrorsByField | components/AddNewItemModel.tsx:181-188 | the error map of a whole validation is the union of the per-field maps |
| ItemSchema.FieldIssuesFold | components/EditItemModel.tsx:174-180 | one field's issues fold to that field's own error map |
| ItemSchema.FieldErrorsKeys | components/EditItemModel.tsx:174-180 | a field's error map mentions only its key, has it exactly when a check failed, and then holds the last failing message |
| ItemSchema.UnionOfFieldMaps | components/EditItemModel.tsx:174-180 | the union of per-field maps agrees with each field's own map on that field's key |
| ItemSchema.FieldErrorsUnionSpec | components/EditItemModel.tsx:174-180 | the union of the per-field maps agrees with every field's map |
| ItemSchema.ErrorsExactlyFailedFields | components/EditItemModel.tsx:171-180 | the form shows an error for a field exactly when the field breaks its rule, with that field's last failing message, and for no other key |
| ItemSchema.PriceErrorMessage | components/EditItemModel.tsx:13-16 | a price error appears exactly when the price is not a positive number, and it always reads "Price must be a positive number" |
| ItemSchema.SubmittedExamples | components/AddNewItemModel.tsx:14-18 | an empty name shows "Name is required"; the price "-5" shows "Price must be a positive number" |
| ItemSchema.ImageErrorMessage | components/AddNewItemModel.tsx:24-27 | a file that is not PNG or JPEG shows "Only PNG and JPEG formats are supported" |
| ItemSchema.ClearError | components/EditItemModel.tsx:79-85 | only the given key can disappear, and it disappears exactly when its message was non-empty |
| ItemSchema.LookupFound | components/EditItemModel.tsx:144-159 | a part whose key no earlier part has is what a lookup of that key finds |
| ItemSchema.LookupMissing | components/EditItemModel.tsx:144-159 | a key no part has is not found |
| ItemSchema.KeysAppend | components/EditItemModel.tsx:144-159 | appending parts unites their key sets |
| ItemSchema.DistinctAppend | components/EditItemModel.tsx:144-159 | appending parts with disjoint keys keeps every key unique |
| ItemSchema.LookupAppend | components/EditItemModel.tsx:144-159 | a lookup in appended parts is answered by the first part list that has the key |
| ItemSchema.TextPartsContents | components/AddNewItemModel.tsx:138-142 | the text parts are exactly name, price, the category under the chosen key, and description, each once, each reading back the form's value |
| ItemSchema.ImagePart | components/AddNewItemModel.tsx:145-147 | an image part exists exactly when a file is chosen, and carries that file |
| EditItemModal.Prefill | components/EditItemModel.tsx:61-73 | an item fills every field, the price with exactly its first '$' cut out (one '$' fewer, nothing else moved), remembers the existing image and drops a chosen file; no item changes nothing |
| EditItemModal.PrefillPriceHasNoDollar | components/EditItemModel.tsx:65 | a price with at most one '$' comes out without '$', shortened by at most one |
| EditItemModal.InputChange | components/EditItemModel.tsx:76-86 | only the edited field or the availability changes; the edited key's error entry is removed exactly when its message is non-empty, and every other entry is kept as it was |
| EditItemModal.FileChosen | components/EditItemModel.tsx:89-102 | a chosen file replaces the new image, clears the banner and a non-empty image error, and keeps the form, availability, existing image and every other error; no file changes nothing |
| EditItemModal.FileDropped | components/EditItemModel.tsx:105-112 | a dropped file replaces the new image and clears the banner, keeping the errors |
| EditItemModal.RemoveFile | components/EditItemModel.tsx:119-122 | removing the new file clears it and the banner, and keeps the existing image, form, availability and errors |
| EditItemModal.RemoveExistingImage | components/EditItemModel.tsx:125-127 | the existing image is forgotten; the chosen file, form, availability, errors and banner are kept |
| EditItemModal.AvailabilityPart | components/EditItemModel.tsx:149 | the availability part is the only `availableForOrder` key and reads "true" or "false" |
| EditItemModal.RemovePart | components/EditItemModel.tsx:157-159 | a `removeImage` part exists exactly when there is neither an existing image nor a new file, and then reads "true" |
| EditItemModal.UpdatePayloadKeys | components/EditItemModel.tsx:144-159 | the update sends name, price, category, description and availability, plus image iff a file is chosen and removeImage iff no image remains, each key once |
| EditItemModal.UpdatePayloadReadsBack | components/EditItemModel.tsx:144-159 | every part of the update reads back: the form's values, the availability text, the chosen file, and "true" for `removeImage` |
| EditItemModal.Submit | components/EditItemModel.tsx:130-190 | without an item nothing happens; a request goes out exactly for a valid form, as an unauthenticated PUT of the update payload to the item's URL; an invalid form shows its field errors; the modal closes exactly on success; failure sets the banner |
| EditItemModal.InitialSubmitReportsEmptyFields | components/EditItemModel.tsx:47-53 | submitting from the model's initial state, before any pre-fill has run, sends nothing and reports exactly name, price and description; the default category passes |
| EditItemModal.EmptyFieldsErrorKeys | components/EditItemModel.tsx:12-18 | a form with empty name, price and description and a chosen category shows errors for exactly those three fields |
| EditItemModal.InvalidSubmitShowsFieldErrors | components/EditItemModel.tsx:171-180 | an invalid form sends nothing and shows an error for exactly the fields that break their rule |
| EditItemModal.FailedUpdateBanner | components/EditItemModel.tsx:181-186 | a failed update shows the server's message, else "Failed to update menu item", and a non-HTTP failure "An unexpected error occurred"; the modal stays open |
| AddItemModal.CategoriesLoaded | components/AddNewItemModel.tsx:53-74 | loaded categories are stored and the first becomes the category only when none is chosen yet, with the banner, errors and file kept; a failed load only sets the banner |
| AddItemModal.CategoriesRequest | components/AddNewItemModel.tsx:57 | the categories are fetched with a GET carrying the auth helper's bearer header, "null" without a token |
| AddItemModal.LoadKeepsValidCategory | components/AddNewItemModel.tsx:59-62 | a load never overwrites a chosen category, and leaves a category that passes validation when one was chosen or the first loaded one has a name |
| AddItemModal.FirstLoadPicksFirstCategory | components/AddNewItemModel.tsx:39-65 | on the fresh modal a load picks the first category, or leaves it empty when there is none; a failed load leaves it empty and sets the banner |
| AddItemModal.InputChange | components/AddNewItemModel.tsx:77-86 | only the edited field changes; its error entry is removed exactly when its message is non-empty, and every other entry is kept as it was |
| AddItemModal.FileChosen | components/AddNewItemModel.tsx:89-102 | a chosen file replaces the image, clears the banner and a non-empty image error, and keeps the form, categories and every other error; no file changes nothing |
| AddItemModal.FileDropped | components/AddNewItemModel.tsx:105-112 | a dropped file replaces the image and clears the banner, keeping the errors |
| AddItemModal.RemoveFile | components/AddNewItemModel.tsx:119-122 | removing the file clears it and the banner, and keeps the form, errors and categories |
| AddItemModal.CreatePayloadContents | components/AddNewItemModel.tsx:138-147 | the create sends name, price, categoryName and description, plus image iff a file is chosen, each once, never availability or a plain category key; every key reads back the form's value or the chosen file |
| AddItemModal.Submit | components/AddNewItemModel.tsx:125-198 | a request goes out exactly for a valid form with a stored token, as a bearer-authenticated POST of the create payload; an invalid form shows its field errors; a missing token shows the login banner; success resets the form and closes |
| AddItemModal.TokenGuardIsAuthentication | components/AddNewItemModel.tsx:149-164 | for a valid form the create is sent exactly when the session helpers call the browser authenticated, with the same bearer header they build |
| AddItemModal.ValidationBeforeTokenCheck | components/AddNewItemModel.tsx:132-154 | an invalid form shows field errors and no banner, whatever the storage holds |
| AddItemModal.ResetState | components/AddNewItemModel.tsx:169-175 | after a successful create the fields are empty, the file is gone and the category is the first loaded one, or empty |
| AddItemModal.FailedCreateBanner | components/AddNewItemModel.tsx:189-194 | a failed create shows the server's message, else "Failed to create menu item", and a non-HTTP failure "An unexpected error occurred" |
| MenuData.ImageSrcRoundTrip | app/FoodMenu/page.tsx:54-56 | the displayed image source records exactly the backend path it came from, and is the default image exactly when there is none |
| FoodMenu.MenuUrl | app/FoodMenu/page.tsx:46-48 | every tab fetches under the menu endpoint; "all" fetches it bare, any other tab adds its name as the category query |
| FoodMenu.MenuUrlInjective | app/FoodMenu/page.tsx:46-48 | different tabs fetch different URLs |
| FoodMenu.FormatAll | app/FoodMenu/page.tsx:52-62 | one display item per backend record, in response order |
| FoodMenu.FormatFields | app/FoodMenu/page.tsx:52-62 | a display item shows the record's image under the API host, or the default image exactly when there is none; its name as title and alt text; and exactly its category name lower-cased |
| FoodMenu.FilterBy | app/FoodMenu/page.tsx:77 | the filtered list holds exactly the items of the active category and is no longer than the input |
| FoodMenu.Filtered | app/FoodMenu/page.tsx:75-77 | the "all" tab shows every item; any other tab shows exactly the items of its category |
| FoodMenu.FilterByAppend | app/FoodMenu/page.tsx:77 | filtering keeps the order of the items |
| FoodMenu.FilterBySingle | app/FoodMenu/page.tsx:77 | a single item is kept exactly when it is in the category |
| FoodMenu.FilterByIdempotent | app/FoodMenu/page.tsx:77 | filtering twice is filtering once |
| FoodMenu.FilterByKeepsAll | app/FoodMenu/page.tsx:77 | the filter keeps the whole list exactly when every item is in the category |
| FoodMenu.FormattedRecordUnderTab | app/FoodMenu/page.tsx:61 | a record shows under a category tab exactly when its category name matches the tab's name in any letter case |
| FoodMenu.FilterNameLower | app/FoodMenu/page.tsx:61 | every tab name is already lower case, so a lower-cased category can match it |
| FoodMenu.AddToOrder | app/FoodMenu/page.tsx:80-87 | the clicked item is selected with its id, name and price, and the quantity modal opens |
| FoodMenu.ConfirmOrder | app/FoodMenu/page.tsx:90-135 | the order is posted with a bearer header exactly when a token is stored; without one it alerts and goes to the login page; success toasts the item's name or "Item"; a 401 alerts "Session expired. Please login again." and goes to the login page; other HTTP failures alert the server's message or "Unknown error"; a non-HTTP failure alerts the retry message |
| FoodMenu.OrderNeedsSession | app/FoodMenu/page.tsx:93-113 | an order is sent exactly when the auth helpers call the browser authenticated, with the bearer header they build |
| FoodMenu.ConfirmedItemIsToasted | app/FoodMenu/page.tsx:80-119 | adding an item and confirming it with a session sends its id and toasts its name, or "Item" when the name is empty |
| HomePage.FormatDescription | app/page.tsx:34-46 | a featured card shows the record's description, or "Delicious item from our menu" when it is empty; its image is the default exactly when the record has none, and otherwise records its origin |
| HomePage.Featured | app/page.tsx:51 | the featured list is the first five records, or all of them when there are fewer, formatted in order |
| HomePage.FeaturedIgnoresTail | app/page.tsx:51 | records after the fifth never change the featured list |
| HomePage.Target | app/page.tsx:68-83 | "View Menu" goes to `/customer/FoodMenu`; both order buttons go to the login page |
| ConditionalNavigation.ShowNav | components/ConditionalNavigation.tsx:9-20 | nothing shows before the effect runs; afterwards the navbar hides exactly on the login page with a session |
| ConditionalNavigation.ShownOffLoginPage | components/ConditionalNavigation.tsx:15-19 | off the login page the navbar always shows |
| ConditionalNavigation.LoginPageRule | components/ConditionalNavigation.tsx:15-19 | on the login page the navbar shows exactly when no token is stored |
| ConditionalNavigation.ShownAfterLogout | components/ConditionalNavigation.tsx:15-19 | after a logout the navbar shows on the login page it lands on |
| AdminSidebar.HandleLogout | components/AdminSIdebar.tsx:10-16 | a declined confirmation changes nothing; a confirmed one removes token and user, keeps every other key, and goes to the login page |
| AdminSidebar.SignOutIsLogout | components/AdminSIdebar.tsx:10-16 | a confirmed sign-out has the same effect as the shared logout helper with its default path |
| AdminSidebar.SignOutEndsSession | components/AdminSIdebar.tsx:10-16 | after a confirmed sign-out there is no session and no role |
| AdminSidebar.SignOutLocksAdminPages | components/AdminSIdebar.tsx:10-16 | after a confirmed sign-out the default admin gate refuses and sends the visitor to the login page |
| AdminSidebar.AtMostOneHighlighted | components/AdminSIdebar.tsx:40-48 | when entries have distinct paths, at most one is highlighted |
| AdminSidebar.SidebarHighlightsAtMostOne | components/AdminSIdebar.tsx:18-29 | the sidebar's own entries have distinct paths, so at most one is highlighted |
| AdminSidebar.ClickedEntryHighlighted | components/AdminSIdebar.tsx:43-45 | clicking an entry goes to its path, where exactly that entry is highlighted |

## Left out

- HTTP and the browser: axios, `fetch`, React effects and their ordering, and re-renders are
  not modelled. A request is a returned value and its reply is an input.
- The submitting flag and the loading flags are left out. They are always reset when their
  handler finishes. They change a button's label and style, replace the category select with
  a loading note, or hide the menu grid, but they disable nothing.
- A second submit while one is pending sends a second PUT or POST. Each submission is modelled
  on its own, with its reply as an input, so overlapping requests are not modelled.
- Presentational components are left out: cards, modals' markup, the order-amount modal, toasts
  and their timers, logos, icons and styles.
- The other pages and components of the repository are left out. This includes
  `app/(customer)/customer/FoodMenu/page.tsx`, the page at `/customer/FoodMenu` that the
  landing page's "View Menu" button opens: it shows a hard-coded item list and fetches nothing.
- `JSON.parse` of the stored user is a parameter `decode`. It maps the stored text to a user
  or to nothing on a parse error.
- Auth.GetUserRole: a role that is not a string (a number, an object) is not modelled. The
  role field is always text.
- Text.Lower: lower-casing is ASCII only. This is exact for the comparisons the code makes:
  no other character lower-cases into "admin", "starters", "main" or "desserts".
- ItemSchema.PriceRule: `Number(val) > 0` is modelled only for plain decimal literals. These
  are digits with at most one '.' and at least one non-zero digit. Leading or trailing
  blanks, a leading '+', exponents, the 0x, 0b and 0o prefixes, "Infinity", and decimals so
  small that they round to zero are not modelled.
- ItemSchema.NameRule: lengths count characters, not UTF-16 code units. Text outside the Basic
  Multilingual Plane is measured differently.
- ItemSchema.DescriptionAndCategoryRules: the 500-character bound on the description counts
  characters, not UTF-16 code units, in the same way.
- ItemSchema.ImageRule: the `File` instance check is not modelled. An image is either absent
  or a file with a size and a MIME type.
- FoodMenu.FormatAll: `parseFloat` of the price and the `Number` conversion of ids are left
  out. Prices are kept as the backend's text.
- HomePage.Featured: `parseInt` of the id and `parseFloat` of the price are left out in the
  same way.
- ConditionalNavigation.ShowNav: the effect re-runs only when the path changes. A token
  stored or removed on the same path is not picked up until the next navigation. The model
  takes the storage at the moment the effect ran.
- FoodMenu.ConfirmOrder: the order amount modal's quantity is taken as given. The toast's
  timed auto-hide is not modelled.
- EditItemModal.Submit: the edit request sends no authorization header, because the source
  sends none. The model states this and does not add one.

=== FILE: add_item_modal.dfy ===
/**
  The add-item modal of components/AddNewItemModel.tsx: loading the categories (and choosing a
  default one), field edits, image choice, and submission, which validates, assembles the
  multipart create request, refuses to send it without a stored token, and resets the form
  after success. Browser storage is the `localStorage` the modal reads the token from.
 */
module AddItemModal {
  import opened Wrappers
  import opened ItemSchema
  import Http
  import Auth

  datatype CategoryRecord = CategoryRecord(id: int, name: string)

  datatype AddState = AddState(
    form: ItemForm, categories: seq<CategoryRecord>, imageFile: Option<ImageFile>,
    errors: map<string, string>, uploadError: string)

  const Initial := AddState(ItemForm("", "", "", ""), [], None, map[], "")

  const CategoriesFailed := "Failed to load categories"
  const Unauthorized := "Unauthorized. Please login as admin."
  const CreateFailed := "Failed to create menu item"
  const UnexpectedError := "An unexpected error occurred"
  const CreateUrl := Http.ApiHost + "/admin/createmenuitem"
  const CategoriesUrl := Http.ApiHost + "/admin/categories"

  /** `categories[0]?.name || ''`: the first category's name, or "" without categories. */
  function DefaultCategory(categories: seq<CategoryRecord>): string {
    if |categories| > 0 then categories[0].name else ""
  }

  /**
    The category fetch finishing: on success the list is stored and the first category becomes
    the form's category only if the list is non-empty and no category is chosen yet; on
    failure only the banner changes.
   */
  function CategoriesLoaded(s: AddState, fetched: Option<seq<CategoryRecord>>): (r: AddState)
    ensures fetched.None? ==> r == s.(uploadError := CategoriesFailed)
    ensures fetched.Some? ==> r.categories == fetched.value && r.errors == s.errors && r.imageFile == s.imageFile
    ensures fetched.Some? ==> r.uploadError == s.uploadError
    ensures fetched.Some? ==>
      (r.form.name == s.form.name && r.form.price == s.form.price && r.form.description == s.form.description)
    ensures fetched.Some? && |fetched.value| > 0 && s.form.category == "" ==> r.form.category == fetched.value[0].name
    ensures fetched.Some? && (|fetched.value| == 0 || s.form.category != "") ==> r.form.category == s.form.category
  {
    match fetched
    case None => s.(uploadError := CategoriesFailed)
    case Some(categories) =>
      if |categories| > 0 && s.form.category == "" then
        s.(categories := categories, form := s.form.(category := categories[0].name))
      else
        s.(categories := categories)
  }

  /**
    The category fetch when the modal opens: a GET of the admin categories with the header of
    `getAuthConfig`, sent even without a token.
   */
  function CategoriesRequest(env: Auth.Env): (req: Http.Request<()>)
    ensures req.verb == Http.Get && req.url == CategoriesUrl && req.authorization.Some?
    ensures Http.BearerToken(req.authorization.value) == Some(Auth.GetAuthToken(env).GetOr("null"))
  {
    Http.Request(Http.Get, CategoriesUrl, (), Some(Auth.AuthHeader(env)))
  }

  /**
    A load never overwrites a chosen category, and a load whose first category has a name leaves
    a category that passes validation, whatever was chosen before.
   */
  lemma LoadKeepsValidCategory(s: AddState, categories: seq<CategoryRecord>, image: Option<ImageFile>)
    ensures s.form.category != "" ==> CategoriesLoaded(s, Some(categories)).form.category == s.form.category
    ensures Rule(s.form, image, Category) ==> Rule(CategoriesLoaded(s, Some(categories)).form, image, Category)
    ensures |categories| > 0 && categories[0].name != "" ==>
      Rule(CategoriesLoaded(s, Some(categories)).form, image, Category)
  {
    DescriptionAndCategoryRules(s.form, image);
    DescriptionAndCategoryRules(CategoriesLoaded(s, Some(categories)).form, image);
    FieldChecksAgree(s.form, image);
    FieldChecksAgree(CategoriesLoaded(s, Some(categories)).form, image);
  }

  /** Opening the fresh modal picks the first loaded category, and a failed load leaves it empty. */
  lemma FirstLoadPicksFirstCategory(categories: seq<CategoryRecord>)
    ensures |categories| > 0 ==> CategoriesLoaded(Initial, Some(categories)).form.category == categories[0].name
    ensures |categories| == 0 ==> CategoriesLoaded(Initial, Some(categories)).form.category == ""
    ensures CategoriesLoaded(Initial, None).form.category == "" && CategoriesLoaded(Initial, None).uploadError == CategoriesFailed
  {
  }

  /** `handleInputChange(field, value)`: only that field changes; only its error entry goes. */
  function InputChange(s: AddState, f: TextField, value: string): (r: AddState)
    ensures GetField(r.form, f) == value
    ensures forall g: TextField :: g != f ==> GetField(r.form, g) == GetField(s.form, g)
    ensures forall k :: k != Key(f) ==> (k in r.errors <==> k in s.errors)
    ensures forall k :: k != Key(f) && k in r.errors ==> r.errors[k] == s.errors[k]
    ensures Key(f) in r.errors <==> Key(f) in s.errors && s.errors[Key(f)] == ""
    ensures Key(f) in r.errors ==> r.errors[Key(f)] == ""
    ensures r.categories == s.categories && r.imageFile == s.imageFile && r.uploadError == s.uploadError
  {
    s.(form := SetField(s.form, f, value), errors := ClearError(s.errors, Key(f)))
  }

  /** `handleFileChange`: a chosen file replaces the image, clears the banner and the image error. */
  function FileChosen(s: AddState, file: Option<ImageFile>): (r: AddState)
    ensures file.None? ==> r == s
    ensures file.Some? ==> r.imageFile == file && r.uploadError == ""
    ensures file.Some? ==> (Key(Image) in r.errors <==> Key(Image) in s.errors && s.errors[Key(Image)] == "")
    ensures file.Some? && Key(Image) in r.errors ==> r.errors[Key(Image)] == ""
    ensures forall k :: k != Key(Image) ==> (k in r.errors <==> k in s.errors)
    ensures forall k :: k != Key(Image) && k in r.errors ==> r.errors[k] == s.errors[k]
    ensures r.form == s.form && r.categories == s.categories
  {
    match file
    case None => s
    case Some(_) => s.(imageFile := file, uploadError := "", errors := ClearError(s.errors, Key(Image)))
  }

  /** `handleDrop`: like choosing a file, but the image error is kept. */
  function FileDropped(s: AddState, file: Option<ImageFile>): (r: AddState)
    ensures file.None? ==> r == s
    ensures file.Some? ==> r.imageFile == file && r.uploadError == ""
    ensures r.form == s.form && r.categories == s.categories && r.errors == s.errors
  {
    if file.Some? then s.(imageFile := file, uploadError := "") else s
  }

  /** `handleRemoveFile`. */
  function RemoveFile(s: AddState): (r: AddState)
    ensures r.imageFile == None && r.uploadError == "" && r.form == s.form
    ensures r.errors == s.errors && r.categories == s.categories
  {
    s.(imageFile := None, uploadError := "")
  }

  /** The multipart create: the text fields with the category under `categoryName`, and the image if chosen. */
  function CreatePayload(form: ItemForm, imageFile: Option<ImageFile>): Payload {
    TextParts(form, "categoryName") + ImagePart(imageFile)
  }

  /**
    The create request carries exactly name, price, categoryName and description, plus image
    iff a file was chosen; availability and a plain `category` key are never sent; each key
    appears once and reads back as the form's value.
   */
  lemma CreatePayloadContents(form: ItemForm, imageFile: Option<ImageFile>)
    ensures Keys(CreatePayload(form, imageFile)) ==
      {"name", "price", "categoryName", "description"} + (if imageFile.Some? then {"image"} else {})
    ensures "availableForOrder" !in Keys(CreatePayload(form, imageFile))
    ensures "category" !in Keys(CreatePayload(form, imageFile))
    ensures DistinctKeys(CreatePayload(form, imageFile))
    ensures Lookup(CreatePayload(form, imageFile), "categoryName") == Some(TextValue(form.category))
    ensures Lookup(CreatePayload(form, imageFile), "name") == Some(TextValue(form.name))
    ensures Lookup(CreatePayload(form, imageFile), "price") == Some(TextValue(form.price))
    ensures Lookup(CreatePayload(form, imageFile), "description") == Some(TextValue(form.description))
    ensures imageFile.Some? ==> Lookup(CreatePayload(form, imageFile), "image") == Some(FileValue(imageFile.value))
  {
    var text := TextParts(form, "categoryName");
    var image := ImagePart(imageFile);
    TextPartsContents(form, "categoryName");
    KeysAppend(text, image);
    DistinctAppend(text, image);
    LookupAppend(text, image, "categoryName");
    LookupAppend(text, image, "name");
    LookupAppend(text, image, "price");
    LookupAppend(text, image, "description");
    LookupAppend(text, image, "image");
  }

  /** The modal's state after a submission, the create request it sent, and whether it closed. */
  datatype Step = Step(state: AddState, request: Option<Http.Request<Payload>>, closed: bool)

  /** The form after a successful create: empty fields, the default category, no file. */
  function ResetAfterCreate(s: AddState): AddState {
    s.(form := ItemForm("", "", DefaultCategory(s.categories), ""), imageFile := None)
  }

  function FailureBanner(reply: Http.Reply): string {
    match reply
    case ApiError(_, message) => Http.ServerMessage(message, CreateFailed)
    case _ => UnexpectedError
  }

  /**
    `handleSubmit`: errors and banner are cleared and the form validated; an invalid form sends
    nothing and shows per-field errors. Only then is the token read: without one the banner
    asks for an admin login and nothing is sent. Otherwise the create is posted with a bearer
    header; success resets the form and closes, failure shows a banner.
   */
  function Submit(s: AddState, storage: Auth.Storage, reply: Http.Reply): (step: Step)
    ensures step.request.Some? <==> Valid(s.form, s.imageFile) && Auth.HasToken(storage)
    ensures !Valid(s.form, s.imageFile) ==>
      step == Step(s.(errors := Errors(s.form, s.imageFile), uploadError := ""), None, false)
    ensures Valid(s.form, s.imageFile) && !Auth.HasToken(storage) ==>
      step == Step(s.(errors := map[], uploadError := Unauthorized), None, false)
    ensures step.request.Some? ==>
      (step.request.value == Http.Request(Http.Post, CreateUrl, CreatePayload(s.form, s.imageFile),
         Some(Http.Bearer(storage[Auth.TokenKey]))))
    ensures step.closed <==> step.request.Some? && reply.Accepted?
    ensures step.closed ==> step.state == ResetAfterCreate(s).(errors := map[], uploadError := "")
    ensures step.request.Some? && !reply.Accepted? ==>
      step.state == s.(errors := map[], uploadError := FailureBanner(reply))
  {
    var cleared := s.(errors := map[], uploadError := "");
    if Validate(s.form, s.imageFile) != [] then
      Step(cleared.(errors := Errors(s.form, s.imageFile)), None, false)
    else if !Auth.HasToken(storage) then
      Step(cleared.(uploadError := Unauthorized), None, false)
    else
      var request := Http.Request(Http.Post, CreateUrl, CreatePayload(s.form, s.imageFile),
                                  Some(Http.Bearer(storage[Auth.TokenKey])));
      if reply.Accepted? then Step(ResetAfterCreate(cleared), Some(request), true)
      else Step(cleared.(uploadError := FailureBanner(reply)), Some(request), false)
  }

  /** The token guard is the session test of the auth helpers, applied in a browser. */
  lemma TokenGuardIsAuthentication(s: AddState, storage: Auth.Storage, reply: Http.Reply)
    requires Valid(s.form, s.imageFile)
    ensures Submit(s, storage, reply).request.Some? <==> Auth.IsAuthenticated(Auth.Browser(storage))
    ensures Submit(s, storage, reply).request.Some? ==>
      Submit(s, storage, reply).request.value.authorization == Some(Auth.AuthHeader(Auth.Browser(storage)))
  {
    Auth.AuthenticatedIff(Auth.Browser(storage));
  }

  /** A missing token is only reported for a valid form: an invalid one shows its field errors instead. */
  lemma ValidationBeforeTokenCheck(s: AddState, storage: Auth.Storage, reply: Http.Reply)
    requires !Valid(s.form, s.imageFile)
    ensures Submit(s, storage, reply).state.uploadError == ""
    ensures Submit(s, storage, reply).state.errors != map[]
    ensures Submit(s, storage, reply).request == None
  {
    ErrorsExactlyFailedFields(s.form, s.imageFile);
    var f :| !Rule(s.form, s.imageFile, f);
    assert Reports(Errors(s.form, s.imageFile), s.form, s.imageFile, f);
  }

  /** After a successful create the form is ready for the next item. */
  lemma ResetState(s: AddState, storage: Auth.Storage)
    requires Valid(s.form, s.imageFile) && Auth.HasToken(storage)
    ensures var r := Submit(s, storage, Http.Accepted).state;
      && r.form.name == "" && r.form.price == "" && r.form.description == ""
      && r.imageFile == None
      && (|s.categories| > 0 ==> r.form.category == s.categories[0].name)
      && (|s.categories| == 0 ==> r.form.category == "")
      && r.errors == map[] && r.uploadError == ""
  {
  }

  /** Banner on a failed create: the server's message when it sent one, else the fallbacks. */
  lemma FailedCreateBanner(s: AddState, storage: Auth.Storage, status: Option<int>, message: string)
    requires Valid(s.form, s.imageFile) && Auth.HasToken(storage)
    ensures Submit(s, storage, Http.ApiError(status, message)).state.uploadError ==
      (if message != "" then message else CreateFailed)
    ensures Submit(s, storage, Http.Unexpected).state.uploadError == UnexpectedError
  {
    var failed := Submit(s, storage, Http.ApiError(status, message));
    assert failed.request.Some?;
    assert failed.state.uploadError == FailureBanner(Http.ApiError(status, message));
    var unexpected := Submit(s, storage, Http.Unexpected);
    assert unexpected.request.Some?;
    assert unexpected.state.uploadError == FailureBanner(Http.Unexpected);
  }
}

=== FILE: admin_sidebar.dfy ===
/**
  The admin sidebar of components/AdminSIdebar.tsx: the confirm-gated sign-out and the
  highlighting of the navigation entry for the current path.
 */
module AdminSidebar {
  import opened Wrappers
  import Auth

  /** Storage after sign-out and where the router is pushed, if anywhere. */
  datatype SignOut = SignOut(storage: Auth.Storage, navigate: Option<string>)

  /**
    `handleLogout`: a declined confirmation changes nothing; a confirmed one removes the token
    and the user, keeps every other key, and goes to the login page.
   */
  function HandleLogout(confirmed: bool, storage: Auth.Storage): (r: SignOut)
    ensures !confirmed ==> r == SignOut(storage, None)
    ensures confirmed ==> r.navigate == Some(Auth.LoginPath)
    ensures confirmed ==> r.storage.Keys == storage.Keys - {Auth.TokenKey, Auth.UserKey}
    ensures forall k :: k in r.storage ==> k in storage && r.storage[k] == storage[k]
  {
    if confirmed then SignOut(storage - {Auth.TokenKey, Auth.UserKey}, Some(Auth.LoginPath)) else SignOut(storage, None)
  }

  /** A confirmed sign-out has the same effect as the shared `logout()` helper. */
  lemma SignOutIsLogout(storage: Auth.Storage)
    ensures var e := Auth.LogoutDefault(Auth.Browser(storage));
      e.env.Browser? && HandleLogout(true, storage) == SignOut(e.env.storage, e.navigate)
  {
  }

  /** After a confirmed sign-out no session is left. */
  lemma SignOutEndsSession(storage: Auth.Storage, decode: Auth.Decoder)
    ensures !Auth.IsAuthenticated(Auth.Browser(HandleLogout(true, storage).storage))
    ensures Auth.GetUserRole(Auth.Browser(HandleLogout(true, storage).storage), decode).None?
  {
  }

  /** After a confirmed sign-out every admin page sends the visitor to the login page. */
  lemma SignOutLocksAdminPages(storage: Auth.Storage, decode: Auth.Decoder)
    ensures Auth.RequireAdminDefault(Auth.Browser(HandleLogout(true, storage).storage), decode)
      == Auth.Gate(false, Some(Auth.LoginPath))
  {
    SignOutEndsSession(storage, decode);
  }

  datatype NavItem = NavItem(name: string, path: string)

  const NavItems := [NavItem("Menu Items", "/admin/menu-items"), NavItem("Orders", "/admin/orders")]

  /** The entries drawn as active for `pathname`. */
  function Highlighted(items: seq<NavItem>, pathname: string): set<nat> {
    set i: nat | i < |items| && items[i].path == pathname
  }

  ghost predicate DistinctPaths(items: seq<NavItem>) {
    forall i, j :: 0 <= i < j < |items| ==> items[i].path != items[j].path
  }

  /** With distinct paths, at most one entry is ever highlighted. */
  lemma AtMostOneHighlighted(items: seq<NavItem>, pathname: string)
    requires DistinctPaths(items)
    ensures |Highlighted(items, pathname)| <= 1
  {
    var h := Highlighted(items, pathname);
    if h != {} {
      var i :| i in h;
      assert h <= {i};
      assert |{i}| == 1;
      SubsetCardinality(h, {i});
    }
  }

  lemma SubsetCardinality(a: set<nat>, b: set<nat>)
    requires a <= b
    ensures |a| <= |b|
  {
    if a != {} {
      var x :| x in a;
      SubsetCardinality(a - {x}, b - {x});
    }
  }

  /** The sidebar's own two paths differ, so at most one of its entries is highlighted. */
  lemma SidebarHighlightsAtMostOne(pathname: string)
    ensures |Highlighted(NavItems, pathname)| <= 1
  {
    assert NavItems[0].path != NavItems[1].path;
    AtMostOneHighlighted(NavItems, pathname);
  }

  /** Clicking an entry pushes its path, on which exactly that entry is highlighted. */
  lemma ClickedEntryHighlighted(i: nat)
    requires i < |NavItems|
    ensures Highlighted(NavItems, NavItems[i].path) == {i}
  {
    assert NavItems[0].path != NavItems[1].path;
  }
}

=== FILE: auth.dfy ===
/**
  The session and role gate of app/utils/auth.ts. Browser storage is a map from key to string;
  the absence of a window (server-side rendering) is its own environment, in which every
  reader answers `null` and no navigation happens. Navigation is returned as a value.
  Decoding the stored user (JSON.parse) is a parameter: `None` stands for a parse failure or
  a value that is not an object.
 */
module Auth {
  import opened Wrappers
  import Text
  import Http

  type Storage = map<string, string>

  datatype Env = Browser(storage: Storage) | NoWindow

  /** A decoded user record; `role` is "" when the record has no truthy role. */
  datatype User = User(role: string)

  type Decoder = string -> Option<User>

  const TokenKey := "token"
  const UserKey := "user"
  const LoginPath := "/auth"
  const AdminHome := "/admin/MenuItems"
  const CustomerDashboard := "/customer/dashboard"
  const AdminRole := "admin"

  /** A non-empty token is stored: what every `!token` guard of the views tests. */
  predicate HasToken(storage: Storage) {
    TokenKey in storage && storage[TokenKey] != ""
  }

  /** `getAuthToken`: the stored token, or null without a window or without the key. */
  function GetAuthToken(env: Env): Option<string> {
    match env
    case NoWindow => None
    case Browser(storage) => if TokenKey in storage then Some(storage[TokenKey]) else None
  }

  /** `getUser`: the decoded user when a non-empty user string is stored. */
  function GetUser(env: Env, decode: Decoder): Option<User> {
    match env
    case NoWindow => None
    case Browser(storage) =>
      if UserKey in storage && storage[UserKey] != "" then decode(storage[UserKey]) else None
  }

  /** `getUserRole`: `user?.role || null`. */
  function GetUserRole(env: Env, decode: Decoder): (role: Option<string>)
    ensures role.Some? ==> role.value != ""
    ensures role.Some? <==> GetUser(env, decode).Some? && GetUser(env, decode).value.role != ""
    ensures role.Some? ==> role.value == GetUser(env, decode).value.role
  {
    match GetUser(env, decode)
    case None => None
    case Some(user) => if user.role != "" then Some(user.role) else None
  }

  /** The role test shared by `isAdmin` and `redirectByRole`: `role?.toLowerCase() === 'admin'`. */
  predicate IsAdminRole(role: Option<string>) {
    role.Some? && Text.Lower(role.value) == AdminRole
  }

  predicate IsAdmin(env: Env, decode: Decoder) {
    IsAdminRole(GetUserRole(env, decode))
  }

  /** `isAuthenticated`: `!!getAuthToken()`. */
  predicate IsAuthenticated(env: Env) {
    match GetAuthToken(env)
    case None => false
    case Some(token) => token != ""
  }

  /** Authenticated exactly when a window exists and a non-empty token is stored. */
  lemma AuthenticatedIff(env: Env)
    ensures IsAuthenticated(env) <==> env.Browser? && HasToken(env.storage)
    ensures env.NoWindow? ==> GetAuthToken(env) == None
  {
  }

  /** The admin test accepts exactly the upper/lower-case spellings of "admin". */
  lemma IsAdminIff(env: Env, decode: Decoder)
    ensures IsAdmin(env, decode) <==>
      GetUserRole(env, decode).Some? && Text.CaseVariantOf(GetUserRole(env, decode).value, AdminRole)
  {
    if GetUserRole(env, decode).Some? {
      Text.LowerEqualsIff(GetUserRole(env, decode).value, AdminRole);
    }
  }

  /** Without a window there is no token and no user, so no session. */
  lemma NoWindowNoSession(decode: Decoder)
    ensures GetAuthToken(NoWindow) == None && GetUser(NoWindow, decode) == None
    ensures !IsAuthenticated(NoWindow) && !IsAdmin(NoWindow, decode)
  {
  }

  /** Storage after an operation together with where it navigates, if anywhere. */
  datatype Effect = Effect(env: Env, navigate: Option<string>)

  /**
    `logout(redirectPath)`: removes exactly the token and the user, keeps every other key,
    and navigates to `redirectPath`; without a window nothing happens.
   */
  function Logout(env: Env, redirectPath: string): (e: Effect)
    ensures env.NoWindow? ==> e == Effect(env, None)
    ensures env.Browser? ==> e.env.Browser? && e.navigate == Some(redirectPath)
    ensures env.Browser? ==> e.env.storage.Keys == env.storage.Keys - {TokenKey, UserKey}
    ensures env.Browser? ==> forall k :: k in e.env.storage ==> e.env.storage[k] == env.storage[k]
  {
    match env
    case NoWindow => Effect(env, None)
    case Browser(storage) => Effect(Browser(storage - {TokenKey, UserKey}), Some(redirectPath))
  }

  /** `logout()` with its default target. */
  function LogoutDefault(env: Env): Effect {
    Logout(env, LoginPath)
  }

  /** After logging out there is no session left: not authenticated, no role, not admin. */
  lemma LogoutEndsSession(env: Env, redirectPath: string, decode: Decoder)
    ensures !IsAuthenticated(Logout(env, redirectPath).env)
    ensures GetUserRole(Logout(env, redirectPath).env, decode) == None
    ensures !IsAdmin(Logout(env, redirectPath).env, decode)
  {
  }

  /** The `Authorization` header of `getAuthConfig`: a missing token is interpolated as "null". */
  function AuthHeader(env: Env): (header: string)
    ensures Http.BearerToken(header) == Some(GetAuthToken(env).GetOr("null"))
  {
    var token := GetAuthToken(env).GetOr("null");
    Http.BearerRoundTrip(token);
    Http.Bearer(token)
  }

  /** `redirectByRole`: the admin section for an admin, the login page for everyone else. */
  function RedirectByRole(env: Env, decode: Decoder): (path: string)
    ensures path == AdminHome <==> IsAdmin(env, decode)
    ensures path == LoginPath <==> !IsAdmin(env, decode)
  {
    if IsAdminRole(GetUserRole(env, decode)) then AdminHome else LoginPath
  }

  /** Whether `requireAdmin` lets the page render, and where it sends the browser otherwise. */
  datatype Gate = Gate(allowed: bool, redirect: Option<string>)

  /**
    `requireAdmin(redirectPath)`: granted exactly to an authenticated admin, who is not moved;
    an unauthenticated visitor goes to `redirectPath`; an authenticated non-admin goes to the
    customer dashboard.
   */
  function RequireAdmin(env: Env, decode: Decoder, redirectPath: string): (g: Gate)
    ensures g.allowed <==> IsAuthenticated(env) && IsAdmin(env, decode)
    ensures g.allowed ==> g.redirect == None
    ensures env.Browser? && !IsAuthenticated(env) ==> g.redirect == Some(redirectPath)
    ensures IsAuthenticated(env) && !IsAdmin(env, decode) ==> g.redirect == Some(CustomerDashboard)
    ensures env.NoWindow? ==> g == Gate(false, None)
  {
    if !IsAuthenticated(env) then
      Gate(false, if env.Browser? then Some(redirectPath) else None)
    else if !IsAdmin(env, decode) then
      Gate(false, Some(CustomerDashboard))
    else
      Gate(true, None)
  }

  /** `requireAdmin()` with its default target: a visitor without a session goes to the login page. */
  function RequireAdminDefault(env: Env, decode: Decoder): (g: Gate)
    ensures g.allowed <==> IsAuthenticated(env) && IsAdmin(env, decode)
    ensures env.Browser? && !IsAuthenticated(env) ==> g.redirect == Some(LoginPath)
  {
    RequireAdmin(env, decode, LoginPath)
  }

  /** In a browser the gate has exactly three outcomes. */
  lemma RequireAdminThreeWay(storage: Storage, decode: Decoder, redirectPath: string)
    ensures var g := RequireAdmin(Browser(storage), decode, redirectPath);
      g == Gate(true, None) || g == Gate(false, Some(redirectPath)) || g == Gate(false, Some(CustomerDashboard))
  {
  }

  /** After logout the admin gate always sends the browser to its redirect path. */
  lemma GateAfterLogout(storage: Storage, decode: Decoder, logoutPath: string, gatePath: string)
    ensures RequireAdmin(Logout(Browser(storage), logoutPath).env, decode, gatePath) == Gate(false, Some(gatePath))
  {
    LogoutEndsSession(Browser(storage), logoutPath, decode);
  }
}

=== FILE: conditional_navigation.dfy ===
/**
  The navbar switch of components/ConditionalNavigation.tsx: hidden until its effect has run,
  then hidden only on the login page while a token is stored.
 */
module ConditionalNavigation {
  import Auth

  /** Whether the navbar is rendered; `effectRan` is false on the first render. */
  function ShowNav(effectRan: bool, pathname: string, storage: Auth.Storage): (shown: bool)
    ensures !effectRan ==> !shown
    ensures effectRan ==> (shown <==> !(pathname == Auth.LoginPath && Auth.IsAuthenticated(Auth.Browser(storage))))
  {
    Auth.AuthenticatedIff(Auth.Browser(storage));
    effectRan && !(pathname == Auth.LoginPath && Auth.HasToken(storage))
  }

  /** Off the login page the navbar shows whatever the storage holds. */
  lemma ShownOffLoginPage(pathname: string, storage: Auth.Storage)
    requires pathname != Auth.LoginPath
    ensures ShowNav(true, pathname, storage)
  {
  }

  /** On the login page it shows exactly when no (non-empty) token is stored. */
  lemma LoginPageRule(storage: Auth.Storage)
    ensures ShowNav(true, Auth.LoginPath, storage) <==> !Auth.HasToken(storage)
  {
  }

  /** Logging out from anywhere brings the navbar back on the login page it lands on. */
  lemma ShownAfterLogout(storage: Auth.Storage)
    ensures ShowNav(true, Auth.LoginPath, Auth.LogoutDefault(Auth.Browser(storage)).env.storage)
  {
  }
}

=== FILE: edit_item_modal.dfy ===
/**
  The edit-item modal of components/EditItemModel.tsx as a state machine: pre-filling from the
  item, field edits that clear their own error, image choice and removal, and submission,
  which validates, assembles the multipart update and maps the outcome. The update request
  is returned as a value and the server's reply is an input.
 */
module EditItemModal {
  import opened Wrappers
  import opened ItemSchema
  import Http
  import Text

  /** The `item` prop; `image` is "" when the item has no image. */
  datatype MenuItem = MenuItem(
    id: string, name: string, price: string, category: string, description: string,
    image: string, availableForOrder: bool)

  datatype EditState = EditState(
    form: ItemForm, availableForOrder: bool, imageFile: Option<ImageFile>,
    existingImage: string, errors: map<string, string>, uploadError: string)

  const Initial := EditState(ItemForm("", "", "Starters", ""), false, None, "", map[], "")

  const AvailabilityKey := "availableForOrder"
  const UpdateFailed := "Failed to update menu item"
  const UnexpectedError := "An unexpected error occurred"

  /**
    The pre-fill effect: every field taken from the item, the first '$' dropped from the
    price, the existing image remembered and any newly chosen file discarded. Errors and the
    banner are left as they were.
   */
  function Prefill(s: EditState, item: Option<MenuItem>): (r: EditState)
    ensures item.None? ==> r == s
    ensures item.Some? ==> r.form.name == item.value.name && r.form.category == item.value.category
    ensures item.Some? ==> r.form.description == item.value.description
    ensures item.Some? ==> r.availableForOrder == item.value.availableForOrder
    ensures item.Some? ==> r.existingImage == item.value.image && r.imageFile == None
    ensures item.Some? ==> r.errors == s.errors && r.uploadError == s.uploadError
    ensures item.Some? && '$' !in item.value.price ==> r.form.price == item.value.price
    ensures item.Some? && '$' in item.value.price ==> r.form.price == Text.RemoveFirst(item.value.price, '$')
    ensures item.Some? && '$' in item.value.price ==>
      multiset(r.form.price) == multiset(item.value.price) - multiset{'$'}
  {
    match item
    case None => s
    case Some(it) =>
      Text.RemoveFirstMultiset(it.price, '$');
      s.(form := ItemForm(it.name, Text.RemoveFirst(it.price, '$'), it.category, it.description),
         availableForOrder := it.availableForOrder,
         existingImage := it.image,
         imageFile := None)
  }

  /**
    Submitting from the model's initial state, before any pre-fill has run, sends nothing and
    reports exactly the name, price and description as missing; the default category passes.
   */
  lemma InitialSubmitReportsEmptyFields(item: MenuItem, reply: Http.Reply)
    ensures Submit(Initial, Some(item), reply).request == None
    ensures Submit(Initial, Some(item), reply).state.errors.Keys == {"name", "price", "description"}
  {
    assert !Rule(Initial.form, None, Name);
    EmptyFieldsErrorKeys(Initial.form);
  }

  /** A form with empty name, price and description but a category reports exactly those three. */
  lemma EmptyFieldsErrorKeys(form: ItemForm)
    requires form.name == "" && form.price == "" && form.description == "" && form.category != ""
    ensures Errors(form, None).Keys == {"name", "price", "description"}
  {
    ErrorsExactlyFailedFields(form, None);
    var e := Errors(form, None);
    assert Reports(e, form, None, Name);
    assert Reports(e, form, None, Price);
    assert Reports(e, form, None, Category);
    assert Reports(e, form, None, Description);
    assert Reports(e, form, None, Image);
    assert "category" !in e && "image" !in e;
    forall k | k in e
      ensures k in {"name", "price", "description"}
    {
      assert k in FieldKeys;
    }
  }

  /** A price written with at most one '$' comes out without any; only one '$' is ever removed. */
  lemma PrefillPriceHasNoDollar(s: EditState, item: MenuItem)
    requires multiset(item.price)['$'] <= 1
    ensures '$' !in Prefill(s, Some(item)).form.price
    ensures |Prefill(s, Some(item)).form.price| >= |item.price| - 1
  {
    var p := Prefill(s, Some(item)).form.price;
    Text.RemoveFirstMultiset(item.price, '$');
    if '$' in item.price {
      assert multiset(p)['$'] == 0;
    }
  }

  /** What a `handleInputChange` call edits: a text field, or the availability toggle. */
  datatype Input = TextInput(field: TextField, value: string) | AvailabilityInput(available: bool)

  function InputKey(input: Input): string {
    match input
    case TextInput(f, _) => Key(f)
    case AvailabilityInput(_) => AvailabilityKey
  }

  /**
    `handleInputChange(field, value)`: only that field changes, and of the errors only the
    field's own entry is removed.
   */
  function InputChange(s: EditState, input: Input): (r: EditState)
    ensures input.TextInput? ==> GetField(r.form, input.field) == input.value
    ensures input.TextInput? ==>
      (forall g: TextField :: g != input.field ==> GetField(r.form, g) == GetField(s.form, g))
      && r.availableForOrder == s.availableForOrder
    ensures input.AvailabilityInput? ==> r.form == s.form && r.availableForOrder == input.available
    ensures forall k :: k != InputKey(input) ==> (k in r.errors <==> k in s.errors)
    ensures forall k :: k != InputKey(input) && k in r.errors ==> r.errors[k] == s.errors[k]
    ensures InputKey(input) in r.errors <==> InputKey(input) in s.errors && s.errors[InputKey(input)] == ""
    ensures InputKey(input) in r.errors ==> r.errors[InputKey(input)] == ""
    ensures r.imageFile == s.imageFile && r.existingImage == s.existingImage && r.uploadError == s.uploadError
  {
    var errors := ClearError(s.errors, InputKey(input));
    match input
    case TextInput(f, v) => s.(form := SetField(s.form, f, v), errors := errors)
    case AvailabilityInput(b) => s.(availableForOrder := b, errors := errors)
  }

  /** `handleFileChange`: a chosen file replaces the new image, clears the banner and the image error. */
  function FileChosen(s: EditState, file: Option<ImageFile>): (r: EditState)
    ensures file.None? ==> r == s
    ensures file.Some? ==> r.imageFile == file && r.uploadError == ""
    ensures file.Some? ==> (Key(Image) in r.errors <==> Key(Image) in s.errors && s.errors[Key(Image)] == "")
    ensures file.Some? && Key(Image) in r.errors ==> r.errors[Key(Image)] == ""
    ensures forall k :: k != Key(Image) ==> (k in r.errors <==> k in s.errors)
    ensures forall k :: k != Key(Image) && k in r.errors ==> r.errors[k] == s.errors[k]
    ensures r.form == s.form && r.availableForOrder == s.availableForOrder && r.existingImage == s.existingImage
  {
    match file
    case None => s
    case Some(_) => s.(imageFile := file, uploadError := "", errors := ClearError(s.errors, Key(Image)))
  }

  /** `handleDrop`: like choosing a file, but the image error is kept. */
  function FileDropped(s: EditState, file: Option<ImageFile>): (r: EditState)
    ensures file.None? ==> r == s
    ensures file.Some? ==> r.imageFile == file && r.uploadError == ""
    ensures r.form == s.form && r.availableForOrder == s.availableForOrder
    ensures r.existingImage == s.existingImage && r.errors == s.errors
  {
    if file.Some? then s.(imageFile := file, uploadError := "") else s
  }

  /** `handleRemoveFile`: forgets the new file; the existing image stays. */
  function RemoveFile(s: EditState): (r: EditState)
    ensures r.imageFile == None && r.uploadError == "" && r.existingImage == s.existingImage
    ensures r.form == s.form && r.availableForOrder == s.availableForOrder && r.errors == s.errors
  {
    s.(imageFile := None, uploadError := "")
  }

  /** `handleRemoveExistingImage`. */
  function RemoveExistingImage(s: EditState): (r: EditState)
    ensures r.existingImage == "" && r.imageFile == s.imageFile
    ensures r.form == s.form && r.availableForOrder == s.availableForOrder
    ensures r.errors == s.errors && r.uploadError == s.uploadError
  {
    s.(existingImage := "")
  }

  const RemoveImagePart := Part("removeImage", TextValue("true"))

  /**
    The multipart update: the four text fields, the availability, the new image when one was
    chosen, and `removeImage=true` when there is neither an existing image nor a new one.
   */
  function UpdatePayload(form: ItemForm, available: bool, imageFile: Option<ImageFile>, existingImage: string): Payload {
    TextParts(form, "category") + AvailabilityPart(available) + ImagePart(imageFile) + RemovePart(imageFile, existingImage)
  }

  const UpdateKeys := {"name", "price", "category", "description", "availableForOrder"}

  function AvailabilityPart(available: bool): (p: Payload)
    ensures Keys(p) == {AvailabilityKey} && DistinctKeys(p)
    ensures Lookup(p, AvailabilityKey) == Some(TextValue(BoolText(available)))
  {
    var p := [Part(AvailabilityKey, TextValue(BoolText(available)))];
    assert p[0].key in Keys(p);
    p
  }

  function RemovePart(imageFile: Option<ImageFile>, existingImage: string): (p: Payload)
    ensures Keys(p) == if existingImage == "" && imageFile.None? then {"removeImage"} else {}
    ensures DistinctKeys(p)
    ensures existingImage == "" && imageFile.None? ==> Lookup(p, "removeImage") == Some(TextValue("true"))
  {
    if existingImage == "" && imageFile.None? then
      var p := [RemoveImagePart];
      assert p[0].key in Keys(p);
      p
    else []
  }

  /**
    The update carries the five form keys, `image` iff a new file was chosen and `removeImage`
    iff there is neither an existing image nor a new file, each key once.
   */
  lemma UpdatePayloadKeys(form: ItemForm, available: bool, imageFile: Option<ImageFile>, existingImage: string)
    ensures Keys(UpdatePayload(form, available, imageFile, existingImage)) == UpdateKeys
      + (if imageFile.Some? then {"image"} else {})
      + (if existingImage == "" && imageFile.None? then {"removeImage"} else {})
    ensures "image" in Keys(UpdatePayload(form, available, imageFile, existingImage)) <==> imageFile.Some?
    ensures "removeImage" in Keys(UpdatePayload(form, available, imageFile, existingImage)) <==>
      existingImage == "" && imageFile.None?
    ensures DistinctKeys(UpdatePayload(form, available, imageFile, existingImage))
  {
    UpdateKeySet(form, available, imageFile, existingImage);
    UpdateDistinct(form, available, imageFile, existingImage);
    var keys := Keys(UpdatePayload(form, available, imageFile, existingImage));
    assert "image" !in UpdateKeys && "removeImage" !in UpdateKeys;
    assert "image" in keys <==> imageFile.Some?;
    assert "removeImage" in keys <==> existingImage == "" && imageFile.None?;
  }

  lemma UpdateKeySet(form: ItemForm, available: bool, imageFile: Option<ImageFile>, existingImage: string)
    ensures Keys(UpdatePayload(form, available, imageFile, existingImage)) == UpdateKeys
      + (if imageFile.Some? then {"image"} else {})
      + (if existingImage == "" && imageFile.None? then {"removeImage"} else {})
  {
    var text := TextParts(form, "category");
    var avail := AvailabilityPart(available);
    var image := ImagePart(imageFile);
    var remove := RemovePart(imageFile, existingImage);
    assert UpdatePayload(form, available, imageFile, existingImage) == text + avail + image + remove;
    TextPartsContents(form, "category");
    KeysAppend(text, avail);
    KeysAppend(text + avail, image);
    KeysAppend(text + avail + image, remove);
  }

  lemma UpdateDistinct(form: ItemForm, available: bool, imageFile: Option<ImageFile>, existingImage: string)
    ensures DistinctKeys(UpdatePayload(form, available, imageFile, existingImage))
  {
    var text := TextParts(form, "category");
    var avail := AvailabilityPart(available);
    var image := ImagePart(imageFile);
    var remove := RemovePart(imageFile, existingImage);
    assert UpdatePayload(form, available, imageFile, existingImage) == text + avail + image + remove;
    TextPartsContents(form, "category");
    KeysAppend(text, avail);
    KeysAppend(text + avail, image);
    DistinctAppend(text, avail);
    DistinctAppend(text + avail, image);
    DistinctAppend(text + avail + image, remove);
  }

  /** Reading the update back gives the form's fields, the availability and the chosen file. */
  lemma UpdatePayloadReadsBack(form: ItemForm, available: bool, imageFile: Option<ImageFile>, existingImage: string)
    ensures var p := UpdatePayload(form, available, imageFile, existingImage);
      && Lookup(p, "name") == Some(TextValue(form.name))
      && Lookup(p, "price") == Some(TextValue(form.price))
      && Lookup(p, "category") == Some(TextValue(form.category))
      && Lookup(p, "description") == Some(TextValue(form.description))
      && Lookup(p, AvailabilityKey) == Some(TextValue(BoolText(available)))
      && (imageFile.Some? ==> Lookup(p, "image") == Some(FileValue(imageFile.value)))
      && (existingImage == "" && imageFile.None? ==> Lookup(p, "removeImage") == Some(TextValue("true")))
  {
    var text := TextParts(form, "category");
    var avail := AvailabilityPart(available);
    var image := ImagePart(imageFile);
    var remove := RemovePart(imageFile, existingImage);
    assert UpdatePayload(form, available, imageFile, existingImage) == text + avail + image + remove;
    TextPartsContents(form, "category");
    KeysAppend(text, avail);
    KeysAppend(text + avail, image);
    forall k | k in {"name", "price", "category", "description", AvailabilityKey, "image", "removeImage"}
      ensures Lookup(text + avail + image + remove, k) ==
        if k in Keys(text) then Lookup(text, k) else if k in Keys(avail) then Lookup(avail, k)
        else if k in Keys(image) then Lookup(image, k) else Lookup(remove, k)
    {
      LookupAppend(text + avail + image, remove, k);
      LookupAppend(text + avail, image, k);
      LookupAppend(text, avail, k);
    }
  }

  function UpdateUrl(id: string): string {
    Http.ApiHost + "/admin/updatemenuitem/" + id
  }

  /** The modal's state after a submission, the update it sent, and whether it closed. */
  datatype Step = Step(state: EditState, request: Option<Http.Request<Payload>>, closed: bool)

  /** The banner a failed update leaves. */
  function FailureBanner(reply: Http.Reply): string {
    match reply
    case ApiError(_, message) => Http.ServerMessage(message, UpdateFailed)
    case _ => UnexpectedError
  }

  /**
    `handleSubmit`: without an item nothing happens. Otherwise the errors are cleared and the
    form validated; an invalid form sends nothing and shows the per-field errors. A valid one
    sends the update (with no authorization header) and closes on success, or keeps the modal
    open with a banner from the server's message or the fallback.
   */
  function Submit(s: EditState, item: Option<MenuItem>, reply: Http.Reply): (step: Step)
    ensures item.None? ==> step == Step(s, None, false)
    ensures step.request.Some? <==> item.Some? && Valid(s.form, s.imageFile)
    ensures item.Some? && !Valid(s.form, s.imageFile) ==>
      step.state == s.(errors := Errors(s.form, s.imageFile)) && !step.closed
    ensures step.request.Some? ==>
      (step.request.value == Http.Request(Http.Put, UpdateUrl(item.value.id),
         UpdatePayload(s.form, s.availableForOrder, s.imageFile, s.existingImage), None))
    ensures step.closed <==> step.request.Some? && reply.Accepted?
    ensures step.request.Some? ==> step.state.errors == map[]
    ensures step.request.Some? && reply.Accepted? ==> step.state == s.(errors := map[])
    ensures step.request.Some? && !reply.Accepted? ==>
      step.state == s.(errors := map[], uploadError := FailureBanner(reply))
  {
    match item
    case None => Step(s, None, false)
    case Some(it) =>
      var cleared := s.(errors := map[]);
      if Validate(s.form, s.imageFile) != [] then
        Step(cleared.(errors := Errors(s.form, s.imageFile)), None, false)
      else
        var request := Http.Request(Http.Put, UpdateUrl(it.id),
                                    UpdatePayload(s.form, s.availableForOrder, s.imageFile, s.existingImage), None);
        if reply.Accepted? then Step(cleared, Some(request), true)
        else Step(cleared.(uploadError := FailureBanner(reply)), Some(request), false)
  }

  /** A rejected form leaves an error entry for exactly the offending fields, and no request. */
  lemma InvalidSubmitShowsFieldErrors(s: EditState, item: MenuItem, reply: Http.Reply)
    requires !Valid(s.form, s.imageFile)
    ensures Submit(s, Some(item), reply).request == None
    ensures forall f :: Key(f) in Submit(s, Some(item), reply).state.errors <==> !Rule(s.form, s.imageFile, f)
    ensures Submit(s, Some(item), reply).state.errors != map[]
  {
    ErrorsExactlyFailedFields(s.form, s.imageFile);
    var f :| !Rule(s.form, s.imageFile, f);
    assert Reports(Errors(s.form, s.imageFile), s.form, s.imageFile, f);
    forall g
      ensures Key(g) in Submit(s, Some(item), reply).state.errors <==> !Rule(s.form, s.imageFile, g)
    {
      assert Reports(Errors(s.form, s.imageFile), s.form, s.imageFile, g);
    }
  }

  /** Banner on a failed update: the server's message when it sent one, else the fallbacks. */
  lemma FailedUpdateBanner(s: EditState, item: MenuItem, status: Option<int>, message: string)
    requires Valid(s.form, s.imageFile)
    ensures Submit(s, Some(item), Http.ApiError(status, message)).state.uploadError ==
      (if message != "" then message else UpdateFailed)
    ensures Submit(s, Some(item), Http.Unexpected).state.uploadError == UnexpectedError
    ensures !Submit(s, Some(item), Http.ApiError(status, message)).closed
  {
  }
}

=== FILE: food_menu.dfy ===
/**
  The menu page served at /FoodMenu (app/FoodMenu/page.tsx): the fetch URL for the active category tab,
  the shaping of backend records into display records, the category filter, and the
  add-to-order and confirm-order handlers. Alerts and page navigation are returned as values;
  the server's reply to the order is an input.
 */
module FoodMenu {
  import opened Wrappers
  import opened MenuData
  import Http
  import Text
  import Auth

  datatype CategoryFilter = All | Starters | Main | Desserts

  function FilterName(c: CategoryFilter): string {
    match c
    case All => "all"
    case Starters => "starters"
    case Main => "main"
    case Desserts => "desserts"
  }

  const CategoryQuery := "?category="

  /** The fetch URL: the whole menu for "all", otherwise the menu with the category as query. */
  function MenuUrl(c: CategoryFilter): (url: string)
    ensures |url| >= |UserMenuUrl| && url[..|UserMenuUrl|] == UserMenuUrl
    ensures c == All <==> url == UserMenuUrl
    ensures c != All ==> url[|UserMenuUrl|..] == CategoryQuery + FilterName(c)
  {
    if c == All then UserMenuUrl else UserMenuUrl + CategoryQuery + FilterName(c)
  }

  /** Different tabs fetch different URLs. */
  lemma MenuUrlInjective(c: CategoryFilter, d: CategoryFilter)
    ensures MenuUrl(c) == MenuUrl(d) ==> c == d
  {
    if MenuUrl(c) == MenuUrl(d) && c != All && d != All {
      var n := |UserMenuUrl| + |CategoryQuery|;
      assert MenuUrl(c)[n..] == FilterName(c);
      assert MenuUrl(d)[n..] == FilterName(d);
    }
  }

  /** A display record: `category` is the lower-cased category name, None when there is none. */
  datatype DisplayItem = DisplayItem(
    id: int, imageSrc: string, imageAlt: string, itemName: string, description: string,
    price: string, category: Option<string>)

  function CategoryOf(r: MenuRecord): Option<string> {
    match r.categoryName
    case None => None
    case Some(name) => Some(Text.Lower(name))
  }

  function Format(r: MenuRecord): DisplayItem {
    DisplayItem(r.id, ImageSrc(r.imageUrl), r.name, r.name, r.description, r.price, CategoryOf(r))
  }

  /** `response.data.map(...)`: one display record per backend record, in response order. */
  function FormatAll(records: seq<MenuRecord>): (items: seq<DisplayItem>)
    ensures |items| == |records|
    ensures forall i :: 0 <= i < |records| ==> items[i] == Format(records[i])
  {
    if records == [] then [] else [Format(records[0])] + FormatAll(records[1..])
  }

  /**
    What a display record shows: the record's image under the API host or the default image,
    its name as title and alt text, and its category name lower-cased.
   */
  lemma FormatFields(r: MenuRecord)
    ensures ImageOrigin(Format(r).imageSrc) == if r.imageUrl != "" then Some(r.imageUrl) else None
    ensures r.imageUrl == "" <==> Format(r).imageSrc == DefaultImage
    ensures Format(r).imageAlt == r.name && Format(r).itemName == r.name
    ensures Format(r).category.Some? <==> r.categoryName.Some?
    ensures r.categoryName.Some? ==> Format(r).category == Some(Text.Lower(r.categoryName.value))
  {
    ImageSrcRoundTrip(r.imageUrl);
  }

  predicate InCategory(item: DisplayItem, c: CategoryFilter) {
    item.category == Some(FilterName(c))
  }

  /** `menuItems.filter(item => item.category === activeCategory)`. */
  function FilterBy(items: seq<DisplayItem>, c: CategoryFilter): (r: seq<DisplayItem>)
    ensures |r| <= |items|
    ensures forall x :: x in r <==> x in items && InCategory(x, c)
  {
    if items == [] then []
    else if InCategory(items[0], c) then [items[0]] + FilterBy(items[1..], c)
    else FilterBy(items[1..], c)
  }

  /** `filteredItems`: everything for "all", otherwise the items of the active category. */
  function Filtered(items: seq<DisplayItem>, c: CategoryFilter): (r: seq<DisplayItem>)
    ensures c == All ==> r == items
    ensures c != All ==> forall x :: x in r <==> x in items && InCategory(x, c)
  {
    if c == All then items else FilterBy(items, c)
  }

  /** Filtering keeps order: the filter of a concatenation is the concatenation of the filters. */
  lemma {:induction false} FilterByAppend(a: seq<DisplayItem>, b: seq<DisplayItem>, c: CategoryFilter)
    ensures FilterBy(a + b, c) == FilterBy(a, c) + FilterBy(b, c)
  {
    if a == [] {
      assert a + b == b;
    } else {
      assert (a + b)[1..] == a[1..] + b;
      FilterByAppend(a[1..], b, c);
    }
  }

  /** Filtering a single item keeps it exactly when it is in the category. */
  lemma FilterBySingle(x: DisplayItem, c: CategoryFilter)
    ensures FilterBy([x], c) == if InCategory(x, c) then [x] else []
  {
    assert [x][1..] == [];
  }

  /** Filtering twice is filtering once. */
  lemma {:induction false} FilterByIdempotent(items: seq<DisplayItem>, c: CategoryFilter)
    ensures FilterBy(FilterBy(items, c), c) == FilterBy(items, c)
  {
    if items != [] {
      FilterByIdempotent(items[1..], c);
      if InCategory(items[0], c) {
        var rest := FilterBy(items[1..], c);
        assert ([items[0]] + rest)[1..] == rest;
      }
    }
  }

  /** The filter keeps everything exactly when every item is in the category. */
  lemma {:induction false} FilterByKeepsAll(items: seq<DisplayItem>, c: CategoryFilter)
    ensures FilterBy(items, c) == items <==> forall i :: 0 <= i < |items| ==> InCategory(items[i], c)
  {
    if items != [] {
      FilterByKeepsAll(items[1..], c);
      if !InCategory(items[0], c) {
        assert |FilterBy(items, c)| < |items|;
      } else if FilterBy(items, c) == items {
        assert FilterBy(items[1..], c) == items[1..];
      }
    }
  }

  /**
    A formatted record shows under a tab exactly when its category name, lower-cased, is the
    tab's name: "Starters", "STARTERS" and "starters" all land under "starters".
   */
  lemma FormattedRecordUnderTab(records: seq<MenuRecord>, i: int, c: CategoryFilter)
    requires 0 <= i < |records| && c != All
    ensures Format(records[i]) in Filtered(FormatAll(records), c) <==>
      records[i].categoryName.Some? && Text.CaseVariantOf(records[i].categoryName.value, FilterName(c))
  {
    var items := FormatAll(records);
    var x := Format(records[i]);
    assert items[i] == x;
    assert x in Filtered(items, c) <==> InCategory(x, c);
    if records[i].categoryName.Some? {
      var name := records[i].categoryName.value;
      assert InCategory(x, c) <==> Text.Lower(name) == FilterName(c);
      FilterNameLower(c);
      Text.LowerEqualsIff(name, FilterName(c));
    }
  }

  lemma FilterNameLower(c: CategoryFilter)
    ensures Text.AllLower(FilterName(c))
  {
    var t := FilterName(c);
    forall i | 0 <= i < |t|
      ensures Text.IsLower(t[i])
    {
      match c
      case All =>
      case Starters =>
      case Main =>
      case Desserts =>
    }
  }

  // ---------------------------------------------------------------- ordering

  /** The item the order modal is opened for. */
  datatype Selected = Selected(menuItemId: int, name: string, price: string)

  datatype OrderView = OrderView(modalOpen: bool, selected: Option<Selected>)

  /** `handleAddToOrder`: remembers the item and opens the quantity modal. */
  function AddToOrder(v: OrderView, id: int, name: string, price: string): (r: OrderView)
    ensures r.modalOpen
    ensures r.selected.Some? && r.selected.value.menuItemId == id
    ensures r.selected.value.name == name && r.selected.value.price == price
  {
    OrderView(true, Some(Selected(id, name, price)))
  }

  datatype OrderData = OrderData(menuItemId: int, quantity: int)

  /** What confirming an order does: the request sent, an alert, a navigation, a success toast. */
  datatype OrderStep = OrderStep(
    request: Option<Http.Request<OrderData>>, alert: Option<string>, redirect: Option<string>,
    toast: Option<string>)

  const PlaceOrderUrl := Http.ApiHost + "/user/placeorder"
  const LoginPrompt := "Please login to place an order"
  const SessionExpired := "Session expired. Please login again."
  const OrderFailedPrefix := "Failed to place order: "
  const UnknownError := "Unknown error"
  const OrderRetry := "Failed to place order. Please try again."

  /** `selectedItem?.name || 'Item'`. */
  function ToastName(selected: Option<Selected>): string {
    if selected.Some? && selected.value.name != "" then selected.value.name else "Item"
  }

  /**
    `handleConfirmOrder`: without a token, alert and go to the login page, sending nothing.
    With one, post the order with a bearer header; success shows the toast, a 401 alerts and
    goes to the login page, any other HTTP failure alerts the server's message or "Unknown
    error", and anything else alerts a retry message.
   */
  function ConfirmOrder(storage: Auth.Storage, selected: Option<Selected>, order: OrderData, reply: Http.Reply): (o: OrderStep)
    ensures o.request.Some? <==> Auth.HasToken(storage)
    ensures !Auth.HasToken(storage) ==> o == OrderStep(None, Some(LoginPrompt), Some(Auth.LoginPath), None)
    ensures o.request.Some? ==>
      (o.request.value == Http.Request(Http.Post, PlaceOrderUrl, order, Some(Http.Bearer(storage[Auth.TokenKey]))))
    ensures o.redirect.Some? ==> o.redirect == Some(Auth.LoginPath)
    ensures o.redirect.Some? <==> !Auth.HasToken(storage) || (reply.ApiError? && reply.status == Some(401))
    ensures o.toast.Some? <==> Auth.HasToken(storage) && reply.Accepted?
    ensures o.toast.Some? ==> o.toast == Some(ToastName(selected)) && o.alert.None?
    ensures Auth.HasToken(storage) && reply.ApiError? && reply.status != Some(401) ==>
      o.alert == Some(OrderFailedPrefix + Http.ServerMessage(reply.message, UnknownError)) && o.redirect.None?
    ensures Auth.HasToken(storage) && reply.ApiError? && reply.status == Some(401) ==> o.alert == Some(SessionExpired)
    ensures Auth.HasToken(storage) && reply.Unexpected? ==> o.alert == Some(OrderRetry) && o.redirect.None?
  {
    if !Auth.HasToken(storage) then
      OrderStep(None, Some(LoginPrompt), Some(Auth.LoginPath), None)
    else
      var request := Some(Http.Request(Http.Post, PlaceOrderUrl, order, Some(Http.Bearer(storage[Auth.TokenKey]))));
      match reply
      case Accepted => OrderStep(request, None, None, Some(ToastName(selected)))
      case ApiError(status, message) =>
        if status == Some(401) then OrderStep(request, Some(SessionExpired), Some(Auth.LoginPath), None)
        else OrderStep(request, Some(OrderFailedPrefix + Http.ServerMessage(message, UnknownError)), None, None)
      case Unexpected => OrderStep(request, Some(OrderRetry), None, None)
  }

  /**
    The order guard is the session test of the auth helpers, and the order carries the header
    those helpers build for the stored token.
   */
  lemma OrderNeedsSession(storage: Auth.Storage, selected: Option<Selected>, order: OrderData, reply: Http.Reply)
    ensures ConfirmOrder(storage, selected, order, reply).request.Some? <==> Auth.IsAuthenticated(Auth.Browser(storage))
    ensures ConfirmOrder(storage, selected, order, reply).request.Some? ==>
      ConfirmOrder(storage, selected, order, reply).request.value.authorization == Some(Auth.AuthHeader(Auth.Browser(storage)))
  {
    Auth.AuthenticatedIff(Auth.Browser(storage));
  }

  /**
    Adding an item to the order and confirming it with a session toasts that item's name, or
    "Item" when the name is empty, and sends its id.
   */
  lemma ConfirmedItemIsToasted(v: OrderView, id: int, name: string, price: string, storage: Auth.Storage, quantity: int)
    requires Auth.HasToken(storage)
    ensures var selected := AddToOrder(v, id, name, price).selected;
      var o := ConfirmOrder(storage, selected, OrderData(selected.value.menuItemId, quantity), Http.Accepted);
      && o.toast == Some(if name != "" then name else "Item")
      && o.request.Some? && o.request.value.body.menuItemId == id
  {
  }
}

=== FILE: home_page.dfy ===
/**
  The landing page of app/page.tsx: the featured list built from the menu response, and where
  its three buttons lead.
 */
module HomePage {
  import opened Wrappers
  import opened MenuData
  import Auth

  datatype HomeItem = HomeItem(id: int, name: string, description: string, price: string, imageUrl: string)

  const DefaultDescription := "Delicious item from our menu"
  const FeaturedCount := 5

  /** One featured card: the record's description unless it is empty, and the image rule. */
  function Format(r: MenuRecord): HomeItem {
    HomeItem(r.id, r.name, if r.description != "" then r.description else DefaultDescription,
             r.price, ImageSrc(r.imageUrl))
  }

  /** A featured card never has an empty description and shows the record's own when it has one. */
  lemma FormatDescription(r: MenuRecord)
    ensures Format(r).description != ""
    ensures r.description != "" ==> Format(r).description == r.description
    ensures r.description == "" ==> Format(r).description == DefaultDescription
    ensures r.imageUrl == "" <==> Format(r).imageUrl == DefaultImage
    ensures ImageOrigin(Format(r).imageUrl) == if r.imageUrl != "" then Some(r.imageUrl) else None
  {
    ImageSrcRoundTrip(r.imageUrl);
  }

  /** `formattedItems.slice(0, 5)`: the first five formatted records, in response order. */
  function Featured(records: seq<MenuRecord>): (items: seq<HomeItem>)
    ensures |items| <= FeaturedCount
    ensures |items| == if |records| < FeaturedCount then |records| else FeaturedCount
    ensures forall i :: 0 <= i < |items| ==> items[i] == Format(records[i])
  {
    var formatted := seq(|records|, i requires 0 <= i < |records| => Format(records[i]));
    if |formatted| <= FeaturedCount then formatted else formatted[..FeaturedCount]
  }

  /** Records past the fifth never change the featured list. */
  lemma FeaturedIgnoresTail(records: seq<MenuRecord>, more: seq<MenuRecord>)
    requires |records| >= FeaturedCount
    ensures Featured(records + more) == Featured(records)
  {
    var a := Featured(records + more);
    var b := Featured(records);
    assert |a| == |b|;
    forall i | 0 <= i < |a|
      ensures a[i] == b[i]
    {
      assert (records + more)[i] == records[i];
    }
  }

  datatype Action = AddToOrder(itemId: int, itemName: string) | OrderNow | ViewMenu

  const CustomerMenuPath := "/customer/FoodMenu"

  /** Where each button navigates. */
  function Target(a: Action): (path: string)
    ensures path == CustomerMenuPath <==> a.ViewMenu?
    ensures path == Auth.LoginPath <==> !a.ViewMenu?
  {
    match a
    case AddToOrder(_, _) => Auth.LoginPath
    case OrderNow => Auth.LoginPath
    case ViewMenu => CustomerMenuPath
  }
}

=== FILE: http.dfy ===
/**
  What the views see of the backend: its host, the shape of a request they issue, and the
  outcome of an awaited request. The request itself is not performed; the server's answer is
  an input of every operation that would await one.
 */
module Http {
  import opened Wrappers

  const ApiHost := "http://localhost:3000"

  datatype Verb = Get | Post | Put

  /** A request the view hands to the HTTP client; `authorization` is the header value, if any. */
  datatype Request<B> = Request(verb: Verb, url: string, body: B, authorization: Option<string>)

  /**
    How an awaited request ended: success, an error the HTTP client raised (with the response
    status, if a response arrived, and the body's `message`, "" when missing or falsy), or any
    other exception.
   */
  datatype Reply = Accepted | ApiError(status: Option<int>, message: string) | Unexpected

  const BearerPrefix := "Bearer "

  /** The value of an `Authorization` header carrying `token`. */
  function Bearer(token: string): string {
    BearerPrefix + token
  }

  /** Reads the token back out of an `Authorization` header value. */
  function BearerToken(header: string): Option<string> {
    if |header| >= |BearerPrefix| && header[..|BearerPrefix|] == BearerPrefix
    then Some(header[|BearerPrefix|..])
    else None
  }

  lemma BearerRoundTrip(token: string)
    ensures BearerToken(Bearer(token)) == Some(token)
  {
    assert Bearer(token)[..|BearerPrefix|] == BearerPrefix;
  }

  /** `error.response?.data?.message || fallback`: the server's message unless it is missing or empty. */
  function ServerMessage(message: string, fallback: string): string
  {
    if message != "" then message else fallback
  }
}

=== FILE: item_schema.dfy ===
/**
  The menu-item schema both admin modals validate against (the `menuItemSchema` of
  components/EditItemModel.tsx and components/AddNewItemModel.tsx, identical in their text
  fields and image rule), the fold of validation issues into a per-field error map, the
  per-field error clearing of `handleInputChange`, and the multipart payload both modals send.

  Validation follows the schema library's order: fields in declaration order (name, price,
  category, description, image), and inside one field every check that fails contributes an
  issue, in the order the checks are written; a failed length check does not stop the
  refinement after it.
 */
module ItemSchema {
  import opened Wrappers

  datatype Field = Name | Price | Category | Description | Image

  /** The fields a text input edits. */
  type TextField = f: Field | !f.Image? witness Name

  const FieldKeys := {"name", "price", "category", "description", "image"}

  function Key(f: Field): string {
    match f
    case Name => "name"
    case Price => "price"
    case Category => "category"
    case Description => "description"
    case Image => "image"
  }

  lemma KeyInjective(f: Field, g: Field)
    ensures Key(f) == Key(g) <==> f == g
  {
  }

  datatype ItemForm = ItemForm(name: string, price: string, category: string, description: string)

  /** What the model keeps of a browser File: its size in bytes and its MIME type. */
  datatype ImageFile = ImageFile(size: nat, mimeType: string)

  /** A validation issue: the path of the offending value and the message to show. */
  datatype Issue = Issue(path: seq<string>, message: string)

  const MaxNameLength := 100
  const MaxDescriptionLength := 500
  const MaxImageBytes := 2 * 1024 * 1024
  const ImageTypes := ["image/png", "image/jpeg", "image/jpg"]

  const NameRequired := "Name is required"
  const NameTooLong := "Name must be less than 100 characters"
  const PriceRequired := "Price is required"
  const PriceNotPositive := "Price must be a positive number"
  const CategoryRequired := "Category is required"
  const DescriptionRequired := "Description is required"
  const DescriptionTooLong := "Description must be less than 500 characters"
  const ImageTooLarge := "Image size must be maximum 2MB"
  const ImageWrongType := "Only PNG and JPEG formats are supported"

  function GetField(form: ItemForm, f: TextField): string {
    match f
    case Name => form.name
    case Price => form.price
    case Category => form.category
    case Description => form.description
  }

  /** `{ ...prev, [field]: value }` on the text fields. */
  function SetField(form: ItemForm, f: TextField, value: string): (r: ItemForm)
    ensures GetField(r, f) == value
    ensures forall g: TextField :: g != f ==> GetField(r, g) == GetField(form, g)
  {
    match f
    case Name => form.(name := value)
    case Price => form.(price := value)
    case Category => form.(category := value)
    case Description => form.(description := value)
  }

  predicate IsDigit(c: char) {
    '0' <= c <= '9'
  }

  /**
    `!isNaN(Number(s)) && Number(s) > 0`, restricted to plain decimal literals: digits with at
    most one decimal point, at least one of the digits non-zero.
   */
  predicate IsPositiveNumber(s: string) {
    && (forall i :: 0 <= i < |s| ==> IsDigit(s[i]) || s[i] == '.')
    && (forall i, j :: 0 <= i < j < |s| && s[i] == '.' ==> s[j] != '.')
    && (exists i :: 0 <= i < |s| && '1' <= s[i] <= '9')
  }

  /** The acceptance rule of each field, stated directly. */
  predicate Rule(form: ItemForm, image: Option<ImageFile>, f: Field) {
    match f
    case Name => 1 <= |form.name| <= MaxNameLength
    case Price => |form.price| >= 1 && IsPositiveNumber(form.price)
    case Category => |form.category| >= 1
    case Description => 1 <= |form.description| <= MaxDescriptionLength
    case Image => image.None? || (image.value.size <= MaxImageBytes && image.value.mimeType in ImageTypes)
  }

  predicate Valid(form: ItemForm, image: Option<ImageFile>) {
    forall f :: Rule(form, image, f)
  }

  /** One check of the schema: whether it passes, and the message it reports when it does not. */
  datatype Check = Check(passes: bool, message: string)

  /** The checks of one field, in the order the schema writes them. */
  function Checks(form: ItemForm, image: Option<ImageFile>, f: Field): seq<Check> {
    match f
    case Name => [Check(|form.name| >= 1, NameRequired), Check(|form.name| <= MaxNameLength, NameTooLong)]
    case Price => [Check(|form.price| >= 1, PriceRequired), Check(IsPositiveNumber(form.price), PriceNotPositive)]
    case Category => [Check(|form.category| >= 1, CategoryRequired)]
    case Description =>
      [Check(|form.description| >= 1, DescriptionRequired), Check(|form.description| <= MaxDescriptionLength, DescriptionTooLong)]
    case Image =>
      match image
      case None => []
      case Some(file) => [Check(file.size <= MaxImageBytes, ImageTooLarge), Check(file.mimeType in ImageTypes, ImageWrongType)]
  }

  /** Messages of the failing checks, in order. */
  function Failing(checks: seq<Check>): seq<string> {
    if checks == [] then []
    else (if checks[0].passes then [] else [checks[0].message]) + Failing(checks[1..])
  }

  /** Unfolds `Failing` on the at most two checks a field has. */
  lemma FailingShort(checks: seq<Check>)
    requires |checks| <= 2
    ensures Failing(checks) ==
      (if |checks| >= 1 && !checks[0].passes then [checks[0].message] else [])
      + (if |checks| == 2 && !checks[1].passes then [checks[1].message] else [])
  {
    if |checks| == 1 {
      assert checks[1..] == [];
    } else if |checks| == 2 {
      assert checks[1..][1..] == [];
    }
  }

  /** One issue per message, all at the path of the field `key`. */
  function IssuesAt(key: string, messages: seq<string>): (issues: seq<Issue>)
    ensures |issues| == |messages|
    ensures forall i :: 0 <= i < |issues| ==> issues[i] == Issue([key], messages[i])
  {
    seq(|messages|, i requires 0 <= i < |messages| => Issue([key], messages[i]))
  }

  function FieldIssues(form: ItemForm, image: Option<ImageFile>, f: Field): seq<Issue> {
    IssuesAt(Key(f), Failing(Checks(form, image, f)))
  }

  /** `menuItemSchema.parse`: the issues, empty exactly when every field obeys its rule. */
  function Validate(form: ItemForm, image: Option<ImageFile>): (issues: seq<Issue>)
    ensures issues == [] <==> Valid(form, image)
  {
    FieldChecksAgree(form, image);
    FieldIssues(form, image, Name) + FieldIssues(form, image, Price) + FieldIssues(form, image, Category)
      + FieldIssues(form, image, Description) + FieldIssues(form, image, Image)
  }

  /** A field has no failing check exactly when it obeys its rule. */
  lemma FieldCheckAgrees(form: ItemForm, image: Option<ImageFile>, f: Field)
    ensures Failing(Checks(form, image, f)) == [] <==> Rule(form, image, f)
  {
    FailingShort(Checks(form, image, f));
  }

  lemma FieldChecksAgree(form: ItemForm, image: Option<ImageFile>)
    ensures forall f :: Failing(Checks(form, image, f)) == [] <==> Rule(form, image, f)
  {
    forall f
      ensures Failing(Checks(form, image, f)) == [] <==> Rule(form, image, f)
    {
      FieldCheckAgrees(form, image, f);
    }
  }

  /** The name rule: 1 to 100 characters. */
  lemma NameRule(form: ItemForm, image: Option<ImageFile>)
    ensures Failing(Checks(form, image, Name)) == [] <==> 1 <= |form.name| <= 100
  {
    FieldChecksAgree(form, image);
  }

  /** The description rule: 1 to 500 characters; the category rule: non-empty. */
  lemma DescriptionAndCategoryRules(form: ItemForm, image: Option<ImageFile>)
    ensures Failing(Checks(form, image, Description)) == [] <==> 1 <= |form.description| <= 500
    ensures Failing(Checks(form, image, Category)) == [] <==> form.category != ""
  {
    FieldChecksAgree(form, image);
  }

  /** The price rule: rejected when empty or not a positive number. */
  lemma PriceRule(form: ItemForm, image: Option<ImageFile>)
    ensures form.price == "" ==> Failing(Checks(form, image, Price)) != []
    ensures !IsPositiveNumber(form.price) ==> Failing(Checks(form, image, Price)) != []
    ensures Failing(Checks(form, image, Price)) == [] <==> IsPositiveNumber(form.price)
  {
    FieldChecksAgree(form, image);
  }

  /** The image rule: optional; a chosen file is at most 2 MiB and PNG or JPEG. */
  lemma ImageRule(form: ItemForm, image: Option<ImageFile>)
    ensures image.None? ==> Failing(Checks(form, image, Image)) == []
    ensures image.Some? ==> (Failing(Checks(form, image, Image)) == [] <==>
      image.value.size <= 2097152 && image.value.mimeType in {"image/png", "image/jpeg", "image/jpg"})
  {
    FieldChecksAgree(form, image);
  }

  // ---------------------------------------------------------------- error map

  /** The field an issue names, when its first path element is truthy. */
  function IssueKey(issue: Issue): Option<string> {
    if |issue.path| > 0 && issue.path[0] != "" then Some(issue.path[0]) else None
  }

  /** The `forEach` that writes `newErrors[err.path[0]] = err.message`, in issue order. */
  function CollectErrors(issues: seq<Issue>): map<string, string> {
    if issues == [] then map[]
    else
      var errors := CollectErrors(issues[..|issues| - 1]);
      var last := issues[|issues| - 1];
      match IssueKey(last)
      case None => errors
      case Some(k) => errors[k := last.message]
  }

  /** `i` is the last issue that names `k`. */
  ghost predicate LastFor(issues: seq<Issue>, i: int, k: string) {
    && 0 <= i < |issues|
    && IssueKey(issues[i]) == Some(k)
    && forall j :: i < j < |issues| ==> IssueKey(issues[j]) != Some(k)
  }

  /**
    The error map has an entry for exactly the fields some issue names, and each entry holds
    the message of the LAST issue naming that field.
   */
  lemma {:induction false} CollectErrorsSpec(issues: seq<Issue>)
    ensures forall k :: k in CollectErrors(issues) <==> exists i :: 0 <= i < |issues| && IssueKey(issues[i]) == Some(k)
    ensures forall i, k :: LastFor(issues, i, k) ==>
      k in CollectErrors(issues) && CollectErrors(issues)[k] == issues[i].message
  {
    if issues != [] {
      var n := |issues| - 1;
      var front := issues[..n];
      CollectErrorsSpec(front);
      forall k
        ensures k in CollectErrors(issues) <==> exists i :: 0 <= i < |issues| && IssueKey(issues[i]) == Some(k)
      {
        if k in CollectErrors(issues) && IssueKey(issues[n]) != Some(k) {
          var i :| 0 <= i < |front| && IssueKey(front[i]) == Some(k);
          assert IssueKey(issues[i]) == Some(k);
        }
        if exists i :: 0 <= i < |issues| && IssueKey(issues[i]) == Some(k) {
          var i :| 0 <= i < |issues| && IssueKey(issues[i]) == Some(k);
          if i < n {
            assert IssueKey(front[i]) == Some(k);
          }
        }
      }
      forall i, k | LastFor(issues, i, k)
        ensures k in CollectErrors(issues) && CollectErrors(issues)[k] == issues[i].message
      {
        if i < n {
          assert LastFor(front, i, k);
        }
      }
    }
  }

  /** Folding a concatenation: the later issues overwrite the earlier ones. */
  lemma {:induction false} CollectErrorsAppend(a: seq<Issue>, b: seq<Issue>)
    ensures CollectErrors(a + b) == CollectErrors(a) + CollectErrors(b)
  {
    if b == [] {
      assert a + b == a;
    } else {
      var n := |b| - 1;
      CollectErrorsAppend(a, b[..n]);
      assert (a + b)[..|a + b| - 1] == a + b[..n];
      assert (a + b)[|a + b| - 1] == b[n];
    }
  }

  function Last(s: seq<string>): string
    requires s != []
  {
    s[|s| - 1]
  }

  /** Issues that all name one non-empty field fold to a single entry holding the last message. */
  lemma {:induction false} CollectErrorsAt(key: string, messages: seq<string>)
    requires key != ""
    ensures messages == [] ==> CollectErrors(IssuesAt(key, messages)) == map[]
    ensures messages != [] ==> CollectErrors(IssuesAt(key, messages)) == map[key := Last(messages)]
  {
    if messages != [] {
      var n := |messages| - 1;
      CollectErrorsAt(key, messages[..n]);
      assert IssuesAt(key, messages)[..n] == IssuesAt(key, messages[..n]);
    }
  }

  /** The errors of one field: none when it obeys its rule, else its last failing message. */
  function FieldErrors(form: ItemForm, image: Option<ImageFile>, f: Field): map<string, string> {
    var failing := Failing(Checks(form, image, f));
    if failing == [] then map[] else map[Key(f) := Last(failing)]
  }

  /** The error map a failed validation leaves behind. */
  function Errors(form: ItemForm, image: Option<ImageFile>): map<string, string> {
    CollectErrors(Validate(form, image))
  }

  /** The per-field error maps, later fields written over earlier ones as the fold does. */
  function FieldErrorsUnion(form: ItemForm, image: Option<ImageFile>): map<string, string> {
    FieldErrors(form, image, Name) + FieldErrors(form, image, Price) + FieldErrors(form, image, Category)
      + FieldErrors(form, image, Description) + FieldErrors(form, image, Image)
  }

  lemma ErrorsByField(form: ItemForm, image: Option<ImageFile>)
    ensures Errors(form, image) == FieldErrorsUnion(form, image)
  {
    var n := FieldIssues(form, image, Name);
    var p := FieldIssues(form, image, Price);
    var c := FieldIssues(form, image, Category);
    var d := FieldIssues(form, image, Description);
    var i := FieldIssues(form, image, Image);
    CollectErrorsAppend(n + p + c + d, i);
    CollectErrorsAppend(n + p + c, d);
    CollectErrorsAppend(n + p, c);
    CollectErrorsAppend(n, p);
    FieldIssuesFold(form, image, Name);
    FieldIssuesFold(form, image, Price);
    FieldIssuesFold(form, image, Category);
    FieldIssuesFold(form, image, Description);
    FieldIssuesFold(form, image, Image);
  }

  lemma FieldIssuesFold(form: ItemForm, image: Option<ImageFile>, f: Field)
    ensures CollectErrors(FieldIssues(form, image, f)) == FieldErrors(form, image, f)
  {
    CollectErrorsAt(Key(f), Failing(Checks(form, image, f)));
  }

  lemma FieldErrorsKeys(form: ItemForm, image: Option<ImageFile>, f: Field)
    ensures FieldErrors(form, image, f).Keys <= {Key(f)}
    ensures Key(f) in FieldErrors(form, image, f) <==> Failing(Checks(form, image, f)) != []
    ensures Key(f) in FieldErrors(form, image, f) ==>
      FieldErrors(form, image, f)[Key(f)] == Last(Failing(Checks(form, image, f)))
  {
  }

  /** A union of maps each holding at most its own field's key keeps every entry unchanged. */
  lemma UnionOfFieldMaps(n: map<string, string>, p: map<string, string>, c: map<string, string>,
                         d: map<string, string>, i: map<string, string>)
    requires n.Keys <= {Key(Name)} && p.Keys <= {Key(Price)} && c.Keys <= {Key(Category)}
    requires d.Keys <= {Key(Description)} && i.Keys <= {Key(Image)}
    ensures var u := n + p + c + d + i;
      && (Key(Name) in u <==> Key(Name) in n) && (Key(Name) in n ==> u[Key(Name)] == n[Key(Name)])
      && (Key(Price) in u <==> Key(Price) in p) && (Key(Price) in p ==> u[Key(Price)] == p[Key(Price)])
      && (Key(Category) in u <==> Key(Category) in c) && (Key(Category) in c ==> u[Key(Category)] == c[Key(Category)])
      && (Key(Description) in u <==> Key(Description) in d) && (Key(Description) in d ==> u[Key(Description)] == d[Key(Description)])
      && (Key(Image) in u <==> Key(Image) in i) && (Key(Image) in i ==> u[Key(Image)] == i[Key(Image)])
      && u.Keys <= {Key(Name), Key(Price), Key(Category), Key(Description), Key(Image)}
  {
    // The five maps are disjoint because distinct fields have distinct keys.
    forall f: Field, g: Field
      ensures Key(f) == Key(g) <==> f == g
    {
      KeyInjective(f, g);
    }
  }

  /** The entry for `f` in `errors` is present iff `f` has a failing check, and holds the last one's message. */
  ghost predicate EntryAgrees(errors: map<string, string>, form: ItemForm, image: Option<ImageFile>, f: Field) {
    && (Key(f) in errors <==> Failing(Checks(form, image, f)) != [])
    && (Key(f) in errors ==> errors[Key(f)] == Last(Failing(Checks(form, image, f))))
  }

  /** Each field contributes at most its own key, so the union holds every failing field's entry. */
  lemma FieldErrorsUnionSpec(form: ItemForm, image: Option<ImageFile>)
    ensures forall f :: EntryAgrees(FieldErrorsUnion(form, image), form, image, f)
    ensures FieldErrorsUnion(form, image).Keys <= FieldKeys
  {
    FieldErrorsKeys(form, image, Name);
    FieldErrorsKeys(form, image, Price);
    FieldErrorsKeys(form, image, Category);
    FieldErrorsKeys(form, image, Description);
    FieldErrorsKeys(form, image, Image);
    UnionOfFieldMaps(FieldErrors(form, image, Name), FieldErrors(form, image, Price), FieldErrors(form, image, Category),
                     FieldErrors(form, image, Description), FieldErrors(form, image, Image));
    var u := FieldErrorsUnion(form, image);
    assert EntryAgrees(u, form, image, Name);
    assert EntryAgrees(u, form, image, Price);
    assert EntryAgrees(u, form, image, Category);
    assert EntryAgrees(u, form, image, Description);
    assert EntryAgrees(u, form, image, Image);
    forall f
      ensures EntryAgrees(u, form, image, f)
    {
      match f
      case Name =>
      case Price =>
      case Category =>
      case Description =>
      case Image =>
    }
  }

  /** The entry for `f` is present iff `f` breaks its rule, and then holds its last failing message. */
  ghost predicate Reports(errors: map<string, string>, form: ItemForm, image: Option<ImageFile>, f: Field) {
    && (Key(f) in errors <==> !Rule(form, image, f))
    && (Key(f) in errors ==>
          Failing(Checks(form, image, f)) != [] && errors[Key(f)] == Last(Failing(Checks(form, image, f))))
  }

  /**
    After a failed validation the error map holds an entry for exactly the fields that break
    their rule, nothing else, and each entry is the message of that field's last failing check.
   */
  lemma ErrorsExactlyFailedFields(form: ItemForm, image: Option<ImageFile>)
    ensures forall f :: Reports(Errors(form, image), form, image, f)
    ensures Errors(form, image).Keys <= FieldKeys
  {
    ErrorsByField(form, image);
    FieldErrorsUnionSpec(form, image);
    var e := Errors(form, image);
    forall f
      ensures Reports(e, form, image, f)
    {
      FieldCheckAgrees(form, image, f);
      assert EntryAgrees(e, form, image, f);
    }
  }

  /**
    An empty or non-positive price always shows "Price must be a positive number": an empty
    price fails both checks, and the refinement's issue comes last.
   */
  lemma PriceErrorMessage(form: ItemForm, image: Option<ImageFile>)
    ensures "price" in Errors(form, image) <==> !IsPositiveNumber(form.price)
    ensures "price" in Errors(form, image) ==> Errors(form, image)["price"] == PriceNotPositive
  {
    ErrorsExactlyFailedFields(form, image);
    assert Reports(Errors(form, image), form, image, Price);
    FailingShort(Checks(form, image, Price));
    assert |form.price| == 0 ==> !IsPositiveNumber(form.price);
  }

  /** An empty name shows "Name is required"; a price of "-5" shows the positive-number message. */
  lemma SubmittedExamples(form: ItemForm, image: Option<ImageFile>)
    ensures form.name == "" ==> "name" in Errors(form, image) && Errors(form, image)["name"] == NameRequired
    ensures form.price == "-5" ==> "price" in Errors(form, image) && Errors(form, image)["price"] == PriceNotPositive
  {
    ErrorsExactlyFailedFields(form, image);
    assert Reports(Errors(form, image), form, image, Name);
    FailingShort(Checks(form, image, Name));
    PriceErrorMessage(form, image);
    if form.price == "-5" {
      assert !IsDigit(form.price[0]) && form.price[0] != '.';
    }
  }

  /** A file of a wrong type reports the type message, oversized or not: the later refinement wins. */
  lemma ImageErrorMessage(form: ItemForm, file: ImageFile)
    requires file.mimeType !in ImageTypes
    ensures "image" in Errors(form, Some(file)) && Errors(form, Some(file))["image"] == ImageWrongType
  {
    ErrorsExactlyFailedFields(form, Some(file));
    assert Reports(Errors(form, Some(file)), form, Some(file), Image);
    FailingShort(Checks(form, Some(file), Image));
  }

  /**
    The error clearing of `handleInputChange` and `handleFileChange`: the entry for `key` goes
    when it holds a truthy message; every other entry stays as it was.
   */
  function ClearError(errors: map<string, string>, key: string): (r: map<string, string>)
    ensures forall k :: k != key ==> (k in r <==> k in errors)
    ensures forall k :: k != key && k in r ==> r[k] == errors[k]
    ensures key in r <==> key in errors && errors[key] == ""
    ensures key in r ==> r[key] == ""
  {
    if key in errors && errors[key] != "" then errors - {key} else errors
  }

  // ---------------------------------------------------------------- multipart payload

  datatype PartValue = TextValue(text: string) | FileValue(file: ImageFile)

  datatype Part = Part(key: string, value: PartValue)

  type Payload = seq<Part>

  function Keys(payload: Payload): set<string> {
    set i | 0 <= i < |payload| :: payload[i].key
  }

  /** `formData.get(key)`: the first part under `key`. */
  function Lookup(payload: Payload, key: string): Option<PartValue> {
    if payload == [] then None
    else if payload[0].key == key then Some(payload[0].value)
    else Lookup(payload[1..], key)
  }

  /** No key is appended twice. */
  ghost predicate DistinctKeys(payload: Payload) {
    forall i, j :: 0 <= i < j < |payload| ==> payload[i].key != payload[j].key
  }

  lemma {:induction false} LookupFound(payload: Payload, i: nat)
    requires i < |payload|
    requires forall j :: 0 <= j < i ==> payload[j].key != payload[i].key
    ensures Lookup(payload, payload[i].key) == Some(payload[i].value)
  {
    if i > 0 {
      LookupFound(payload[1..], i - 1);
    }
  }

  lemma {:induction false} LookupMissing(payload: Payload, key: string)
    requires key !in Keys(payload)
    ensures Lookup(payload, key) == None
  {
    if payload != [] {
      assert payload[0].key in Keys(payload);
      assert Keys(payload[1..]) <= Keys(payload) by {
        forall k | k in Keys(payload[1..]) ensures k in Keys(payload) {
          var i :| 0 <= i < |payload[1..]| && payload[1..][i].key == k;
          assert payload[i + 1].key == k;
        }
      }
      LookupMissing(payload[1..], key);
    }
  }

  lemma KeysAppend(a: Payload, b: Payload)
    ensures Keys(a + b) == Keys(a) + Keys(b)
  {
    forall k | k in Keys(a + b)
      ensures k in Keys(a) + Keys(b)
    {
      var i :| 0 <= i < |a + b| && (a + b)[i].key == k;
      if i >= |a| {
        assert b[i - |a|].key == k;
      }
    }
    forall k | k in Keys(a) + Keys(b)
      ensures k in Keys(a + b)
    {
      if k in Keys(a) {
        var i :| 0 <= i < |a| && a[i].key == k;
        assert (a + b)[i].key == k;
      } else {
        var i :| 0 <= i < |b| && b[i].key == k;
        assert (a + b)[|a| + i].key == k;
      }
    }
  }

  /** Appending parts with fresh keys keeps the keys distinct. */
  lemma DistinctAppend(a: Payload, b: Payload)
    requires DistinctKeys(a) && DistinctKeys(b) && Keys(a) !! Keys(b)
    ensures DistinctKeys(a + b)
  {
    forall i, j | 0 <= i < j < |a + b|
      ensures (a + b)[i].key != (a + b)[j].key
    {
      if j >= |a| && i < |a| {
        assert (a + b)[i].key in Keys(a);
        assert (a + b)[j].key == b[j - |a|].key;
        assert b[j - |a|].key in Keys(b);
      } else if i >= |a| {
        assert (a + b)[i].key == b[i - |a|].key;
        assert (a + b)[j].key == b[j - |a|].key;
      }
    }
  }

  /** A key is looked up in the first payload when it is there, else in the second. */
  lemma {:induction false} LookupAppend(a: Payload, b: Payload, key: string)
    ensures Lookup(a + b, key) == if key in Keys(a) then Lookup(a, key) else Lookup(b, key)
  {
    if a == [] {
      assert a + b == b;
    } else {
      assert (a + b)[1..] == a[1..] + b;
      LookupAppend(a[1..], b, key);
      KeysAppend([a[0]], a[1..]);
      assert [a[0]] + a[1..] == a;
      assert Keys([a[0]]) == {a[0].key};
    }
  }

  /** "true" or "false", as `String(b)` writes a boolean. */
  function BoolText(b: bool): string {
    if b then "true" else "false"
  }

  /** The four text parts, in the order both modals append them, under the given category key. */
  function TextParts(form: ItemForm, categoryKey: string): Payload {
    [ Part("name", TextValue(form.name)),
      Part("price", TextValue(form.price)),
      Part(categoryKey, TextValue(form.category)),
      Part("description", TextValue(form.description)) ]
  }

  /** The text parts carry the four fields, each once, and give each field's value back. */
  lemma TextPartsContents(form: ItemForm, categoryKey: string)
    requires categoryKey !in {"name", "price", "description"}
    ensures var p := TextParts(form, categoryKey);
      && Keys(p) == {"name", "price", categoryKey, "description"}
      && DistinctKeys(p)
      && Lookup(p, "name") == Some(TextValue(form.name))
      && Lookup(p, "price") == Some(TextValue(form.price))
      && Lookup(p, categoryKey) == Some(TextValue(form.category))
      && Lookup(p, "description") == Some(TextValue(form.description))
  {
    var p := TextParts(form, categoryKey);
    assert p[0].key in Keys(p) && p[1].key in Keys(p) && p[2].key in Keys(p) && p[3].key in Keys(p);
    LookupFound(p, 0);
    LookupFound(p, 1);
    LookupFound(p, 2);
    LookupFound(p, 3);
  }

  /** The image part, present iff a new file was chosen. */
  function ImagePart(imageFile: Option<ImageFile>): (p: Payload)
    ensures Keys(p) == if imageFile.Some? then {"image"} else {}
    ensures DistinctKeys(p)
    ensures imageFile.Some? ==> Lookup(p, "image") == Some(FileValue(imageFile.value))
  {
    match imageFile
    case None => []
    case Some(file) =>
      var p := [Part("image", FileValue(file))];
      assert p[0].key in Keys(p);
      p
  }
}

=== FILE: menu_data.dfy ===
/**
  A menu item as the backend's `/user/menu` endpoint returns it, and the image rule both the
  home page and the menu page apply when turning it into a display record.
 */
module MenuData {
  import opened Wrappers
  import Http

  /**
    A backend menu record. Strings are "" when the backend leaves them out or sends a falsy
    value; `categoryName` is None when the record has no category or its category no name.
   */
  datatype MenuRecord = MenuRecord(
    id: int, name: string, description: string, price: string, imageUrl: string,
    categoryName: Option<string>)

  const DefaultImage := "/images/golden_crunch_bite.png"
  const UserMenuUrl := Http.ApiHost + "/user/menu"

  /** The image to show: the backend path under the API host, or the bundled default image. */
  function ImageSrc(imageUrl: string): string {
    if imageUrl != "" then Http.ApiHost + imageUrl else DefaultImage
  }

  /** Reads back which backend path an image source points at; None for the default image. */
  function ImageOrigin(src: string): Option<string> {
    if |src| >= |Http.ApiHost| && src[..|Http.ApiHost|] == Http.ApiHost then Some(src[|Http.ApiHost|..]) else None
  }

  /** An image source records exactly the backend path it came from, and the default image none. */
  lemma ImageSrcRoundTrip(imageUrl: string)
    ensures ImageOrigin(ImageSrc(imageUrl)) == if imageUrl != "" then Some(imageUrl) else None
    ensures imageUrl == "" <==> ImageSrc(imageUrl) == DefaultImage
  {
    if imageUrl != "" {
      assert ImageSrc(imageUrl)[..|Http.ApiHost|] == Http.ApiHost;
      assert ImageSrc(imageUrl)[0] != DefaultImage[0];
    } else {
      assert DefaultImage[0] != Http.ApiHost[0];
    }
  }
}

=== FILE: text.dfy ===
/**
  String helpers shared by the storefront: JavaScript's `toLowerCase` restricted to ASCII
  letters, and `String.prototype.replace` with a one-character string pattern, which removes
  only the FIRST occurrence.
 */
module Text {

  predicate IsUpper(c: char) {
    'A' <= c <= 'Z'
  }

  predicate IsLower(c: char) {
    'a' <= c <= 'z'
  }

  function LowerChar(c: char): char {
    if IsUpper(c) then (c as int + 32) as char else c
  }

  function UpperChar(c: char): char {
    if IsLower(c) then (c as int - 32) as char else c
  }

  /** `s.toLowerCase()` on ASCII letters; every other character is kept. */
  function Lower(s: string): (r: string)
    ensures |r| == |s|
    ensures forall i :: 0 <= i < |s| ==> r[i] == LowerChar(s[i])
  {
    if s == [] then [] else [LowerChar(s[0])] + Lower(s[1..])
  }

  /** `s` spells `t` with any mix of upper- and lower-case letters. */
  ghost predicate CaseVariantOf(s: string, t: string) {
    |s| == |t| && forall i :: 0 <= i < |s| ==> s[i] == t[i] || s[i] == UpperChar(t[i])
  }

  ghost predicate AllLower(t: string) {
    forall i :: 0 <= i < |t| ==> IsLower(t[i])
  }

  lemma LowerCharIs(c: char, d: char)
    requires IsLower(d)
    ensures LowerChar(c) == d <==> c == d || c == UpperChar(d)
  {
  }

  /** Comparing a lower-cased string against a lower-case word accepts exactly the case variants of that word. */
  lemma LowerEqualsIff(s: string, t: string)
    requires AllLower(t)
    ensures Lower(s) == t <==> CaseVariantOf(s, t)
  {
    if Lower(s) == t {
      forall i | 0 <= i < |s|
        ensures s[i] == t[i] || s[i] == UpperChar(t[i])
      {
        LowerCharIs(s[i], t[i]);
      }
    }
    if CaseVariantOf(s, t) {
      forall i | 0 <= i < |s|
        ensures Lower(s)[i] == t[i]
      {
        LowerCharIs(s[i], t[i]);
      }
    }
  }

  /** Index of the first occurrence of `c` in `s`. */
  function FirstIndex(s: string, c: char): (i: nat)
    requires c in s
    ensures i < |s| && s[i] == c
    ensures c !in s[..i]
  {
    if s[0] == c then 0 else
      var j := FirstIndex(s[1..], c);
      assert s[1..][..j] == s[1..j + 1];
      1 + j
  }

  /** `s.replace(c, '')` for a one-character pattern: only the first `c` goes. */
  function RemoveFirst(s: string, c: char): (r: string)
    ensures c !in s ==> r == s
    ensures c in s ==> r == s[..FirstIndex(s, c)] + s[FirstIndex(s, c) + 1..]
  {
    if s == [] then []
    else if s[0] == c then s[1..]
    else
      var rest := RemoveFirst(s[1..], c);
      assert c in s ==> s[1..][..FirstIndex(s[1..], c)] == s[1..FirstIndex(s, c)];
      [s[0]] + rest
  }

  /** Exactly one `c` is removed when there is one; every other character stays. */
  lemma RemoveFirstMultiset(s: string, c: char)
    ensures c in s ==> multiset(RemoveFirst(s, c)) == multiset(s) - multiset{c}
    ensures c in s ==> |RemoveFirst(s, c)| == |s| - 1
  {
    if c in s {
      var i := FirstIndex(s, c);
      assert s == s[..i] + [s[i]] + s[i + 1..];
      calc {
        multiset(s);
        multiset(s[..i]) + multiset{c} + multiset(s[i + 1..]);
        multiset(RemoveFirst(s, c)) + multiset{c};
      }
    }
  }
}

=== FILE: wrappers.dfy ===
/** Optional values: JavaScript's `null`/`undefined` on the one hand and a present value on the other. */
module Wrappers {

  datatype Option<+T> = None | Some(value: T) {

    /** The present value, or `default` in place of null: what `x ?? default` reads as. */
    function GetOr(default: T): T {
      match this
      case Some(v) => v
      case None => default
    }
  }
}
